=== FILE: README.md ===
# Keyboard controller core: key scan, HID reports and LED frame buffers

This project is a Dafny model of the firmware core of a backlit USB
keyboard controller (hello-darkness). It covers two coupled pieces, `src/key.c` and `src/led.c`.

The key-scan engine:
- turns each sampled column of the key matrix into key-down and key-up events;
- keeps the boot keyboard input report, with its six-slot rollover list, as in Appendix B.1 of the USB Device Class Definition for HID 1.11;
- keeps an extended second report;
- reports the "ErrorRollOver" phantom state of Appendix C when the list overflows;
- accumulates the rotary encoder into a wheel byte, or into the LED brightness while the lighting key is held;
- maps the host's LED output report onto four indicator LEDs;
- keeps a two-byte activity flip-flop.

The LED engine:
- addresses 144 RGB LEDs in a 3 × 256-word frame buffer, with three cyclic channel orders;
- resolves keys to single LEDs or to sentinel-terminated LED groups;
- writes whole LED columns for effects;
- keeps a pool of three effect buffers, with checkout, commit and clear;
- streams one buffer page per timer tick and picks the next buffer at each frame boundary;
- clamps the global brightness.

Everything is pure functions over immutable datatypes:
- `Key.Keyboard` holds the reports, the overflow flag, the toggles, the last column masks, the last encoder reading, a log of USB submissions and the lighting state `Led.Leds`.
- `Led.Leds` holds the four frame buffers, brightness, the current buffer and page, the ready set and a log of DMA transfers.

C's `uint8_t` and `uint16_t` values are modelled by use. Values manipulated bit by bit are `bv8`/`bv16`: report bytes, the activity toggles, the column masks and the encoder readings. So the wheel byte wraps modulo 256. Values used as numbers are bounded integers, which never wrap: LED ids, key positions, colour components and the brightness are `Common.Byte`, and frame words are `Common.Word`. The current buffer is `Led.BufferIndex` and the page is `Led.Page`. The 8-bit ready mask is kept as the set of its set bits.

Modules:
- `Common`: shared types and bit lemmas.
- `LedTables`: the static tables of `led.c` and the constants of `led.h`.
- `Led`: addressing, pixel writes, key resolution, column write, brightness.
- `LedBuffers`: effect pool and transmission tick.
- `HidReport`: rollover list add/remove.
- `KeyReport`: usage table and press/release dispatch.
- `Key`: callbacks of `key.c`.

Two behaviours of the code are worth knowing:
- **The buffer advance at a frame boundary.** It looks only at the immediate ring successor (`src/led.c:73-77`) and otherwise stays on the current buffer. `LedBuffers.OnlySuccessorConsidered` shows the consequence: a ready buffer two steps ahead is never reached while nothing else is ready.
- **The overflow flag.** It is cleared only by a successful removal (`src/key.c:87-88`), so releasing the key that overflowed leaves it set. `KeyReport.OverflowOutlivesUntrackedRelease` states it.

## Model

| member | source | states |
|---|---|---|
| LedTables.KeyLedMapSafe | src/led.c:39-50 | The key-to-LED map has one entry per matrix position 0..0x8D. Every group entry 0xC0+p points inside the group table at the first id of a group, so following it never reads outside the array. |
| LedTables.GroupFrom | src/led.c:52-57 | The group starting at index p is exactly the table slice up to the next 0xFF terminator. It lies inside the array and holds only LED ids ≤ 0x8F. |
| Led.Offset | src/led.c:356 | The word offset of every id ≤ 0x8F is below 256 and lies at 7..15 modulo 16, so it is never a control-word slot. The id can be recovered from it. |
| Led.OffsetInjective | src/led.c:346 | Two valid ids share an offset if and only if they are the same id. |
| Led.SeedControlWords | src/led.c:210-235 | Afterwards every control slot holds its control word: the multiples of 16 in plane 0, and words 224 and 240 in planes 1 and 2. Every other word of the buffer is unchanged. |
| Led.PixelWriteKeepsControlWords | src/led.c:210-235 | A change confined to offsets at 7..15 modulo 16 leaves the seeded control words intact. |
| Led.ForegroundWriteKeepsControlWords | src/led.c:353-375 | A write to buffer 0 confined to LED offsets keeps the control words in place: if all four buffers hold their control words before, they still do after. |
| Led.ColumnKeepsControlWords | src/led.c:397-420 | The column loop writes no control slot, so the written buffer keeps its control words. |
| Led.ProductFits | src/led.c:359-361 | A colour byte times the brightness byte is at most 255·255, so storing the product in a 16-bit word never truncates it. |
| Led.StoreAt | src/led.c:357-373 | The channel-order switch stores red, green and blue × brightness into planes c, c+1 and c+2 (mod 3) for wiring class c, and changes no other word. |
| Led.SetLed | src/led.c:343-351 | For id ≤ 0x8F, planes 0, 1 and 2 of buffer 0 hold c0, c1 and c2 × brightness at the id's offset, and nothing else changes. Larger ids change nothing. |
| Led.SetLedRgb | src/led.c:353-375 | For id ≤ 0x8F the LED shows (r, g, b) in its own channel order. Only its offset in buffer 0 changes, so if all four buffers hold their control words before, they still do after. Larger ids change nothing. |
| Led.ShowsDetermines | src/led.c:353-375 | What an LED shows fixes its word in all three planes. |
| Led.SetLedRgbKeepsShows | src/led.c:353-375 | Lighting one LED keeps every LED that already showed the same colour. |
| Led.LedsOf | src/led.c:377-388 | Every LED a key position resolves to is a valid id ≤ 0x8F. |
| Led.SetGroup | src/led.c:382-384 | The group loop changes buffer 0 only at the offsets of the listed ids. If all four buffers hold their control words before, they still do after. |
| Led.SetGroupShows | src/led.c:382-384 | After the group loop every listed valid id shows the colour. Every LED that showed it before still does. |
| Led.SetKeyRgb | src/led.c:377-388 | Only buffer 0 changes. If all four buffers hold their control words before, they still do after. Positions above 0x8D change nothing. |
| Led.SetKeyRgbLights | src/led.c:377-388 | Every LED of the key shows the colour afterwards, and no other word of buffer 0 changes. |
| Led.GroupKeyLights | src/led.c:381-384 | A group entry lights every id of its group and nothing else. |
| Led.SingleKeyLights | src/led.c:385-386 | A single entry lights that one LED and nothing else; the no-LED entry lights nothing. |
| Led.DarkKeyIsNoOp | src/led.c:39 | A key whose map entry is the 0xBF "no LED" entry leaves the lighting state unchanged. |
| Led.ColumnFromLights | src/led.c:397-420 | From row k on, the column loop lights each row of the column with its colour. It leaves every word outside those rows untouched. |
| Led.ColumnEffect | src/led.c:391-394 | A missing buffer, a missing colour block or a column above 8 changes nothing. Otherwise the result is the column write on the given buffer. If all four buffers hold their control words before, they still do after. |
| Led.WriteColumn | src/led.c:395-420 | Only the chosen buffer changes. Each of the 16 rows of the column shows its red, green and blue bytes from the 48-byte block, and every word off the column is unchanged. |
| Led.ColumnEffectShows | src/led.c:391-421 | Row k of the column holds exactly what SetLedRgb would store for LED 16·column+k with (rgb[k], rgb[16+k], rgb[32+k]). |
| Led.AdjustBrightness | src/led.c:472-480 | The new brightness is the old one plus delta, saturated into [25, 255]. The 8-bit store never wraps. |
| Led.BrightnessSaturates | src/led.c:472-480 | Large positive and negative steps stop at 255 and 25. A zero step keeps any brightness already in range. |
| LedBuffers.StepsTo | src/led.c:448-453 | Forward ring distance 1..3 between buffers. It is 1 exactly for the ring successor, and 3 exactly for a full round from an effect buffer back to itself. |
| LedBuffers.Prune | src/led.c:437-446 | The backward walk clears exactly the ready bits of the current buffer and of the contiguous ready buffers behind it in the ring 3→2→1→3. It clears nothing when the current bit is clear, and leaves the other bits alone. |
| LedBuffers.Scan | src/led.c:448-453 | The forward scan returns an effect buffer whose ready bit is clear. Every buffer nearer in ring order is ready. |
| LedBuffers.GetEffectBuffer | src/led.c:423-460 | Checkout refuses at once in two cases: an effect is showing with nothing queued, or the foreground is showing with all three effect buffers queued. It also refuses when, after pruning, every other effect buffer is ready. Otherwise it returns the nearest free effect buffer after the current one, never the current one. Only the ready set changes, and only by the pruning. |
| LedBuffers.ForegroundCheckoutSucceeds | src/led.c:432-435 | While the foreground is showing, a checkout fails if and only if all three effect buffers are queued. |
| LedBuffers.CheckoutRepeats | src/led.c:423-460 | A second checkout without a commit in between returns the same buffer or none, and leaves the pool as the first one left it. |
| LedBuffers.Commit | src/led.c:462-465 | Sets exactly the ready bit of the committed buffer; nothing else changes. |
| LedBuffers.CommitKeepsPoolValid | src/led.c:462-465 | Committing an effect buffer keeps bit 0 clear, which is what makes both checkout loops terminate. Committing twice is the same as committing once. |
| LedBuffers.InitialLeds | src/led.c:16-24 | At start-up every buffer holds its control words and zero elsewhere, the brightness is 32, the foreground is current at page 0, and nothing is ready or sent. |
| LedBuffers.ClearEffect | src/led.c:467-470 | No buffer is ready afterwards; nothing else changes. |
| LedBuffers.Tick | src/led.c:64-79 | One tick logs one transfer of the current buffer's current page, and the page cycles 0→1→2→0. The current buffer changes only at the wrap. There it becomes the foreground when nothing is ready, the ring successor when that is ready, and otherwise stays. |
| LedBuffers.Ticks | src/led.c:64-79 | n ticks extend the transfer log by n entries, and change neither the buffers, the brightness nor the ready set. |
| LedBuffers.FrameFromOneBuffer | src/led.c:64-79 | The three ticks starting at page 0 send pages 0, 1 and 2 of the same buffer, so a frame is never torn between buffers. |
| LedBuffers.SuccessorShownNext | src/led.c:73-77 | At a frame boundary, a ready ring successor becomes the current buffer. |
| LedBuffers.ClearReturnsToForeground | src/led.c:70-71 | After a clear, the next frame boundary returns to the foreground buffer. |
| LedBuffers.OnlySuccessorConsidered | src/led.c:73-77 | When only the buffer two steps ahead is ready, the current buffer never changes, however many ticks pass. |
| LedBuffers.WorkingBufferNeverStreamed | src/led.c:64-79 | A buffer that is neither current nor ready never becomes current until it is committed, whatever ticks, clears and other commits happen meanwhile. |
| LedBuffers.CheckoutIsPrivate | src/led.c:448-459 | The buffer handed out by a checkout is not streamed before it is committed. |
| LedBuffers.CommitShownAtBoundary | src/led.c:68-79 | A committed ring successor of the current buffer is current at the next frame boundary. |
| HidReport.ErrorReport | src/key.c:122-123 | The overflow report carries the given modifier byte, a zero reserved byte and ErrorRollOver (0x01) in all six slots. It is not a valid key list. |
| HidReport.AddFrom | src/key.c:31-39 | The add loop never touches bytes 0 and 1. A failed add leaves the report unchanged. |
| HidReport.AddFromPacked | src/key.c:31-39 | On a packed report the loop has three outcomes. If kc is already listed it succeeds without change. If there is room it writes kc into the first zero slot. If six other codes fill the slots it fails without change. |
| HidReport.AddKey | src/key.c:28-40 | Header bytes kept, and failure leaves the report unchanged. On a packed report and nonzero code the report stays packed, and its list becomes the pressed list. |
| HidReport.ShiftDownShifts | src/key.c:47-52 | On slots that stay zero after the first zero, the shift moves every later slot down by one and zero-fills slot 7. |
| HidReport.RemoveFrom | src/key.c:45-58 | The remove loop never touches bytes 0 and 1. A failed removal leaves the report unchanged. |
| HidReport.RemoveFromPacked | src/key.c:45-58 | On a packed report, a listed kc is cut out with the later codes shifted left in order and the run zero-terminated, and the result is success. A kc not in the list gives failure without change. |
| HidReport.RemoveKey | src/key.c:42-59 | Header bytes kept, and failure leaves the report unchanged. On a packed report and nonzero code the report stays packed and its list loses kc. |
| HidReport.WithoutKeepsKeyList | src/key.c:42-59 | Removing a code from a valid list leaves at most six distinct nonzero codes. |
| HidReport.AddThenRemove | src/key.c:28-59 | For a code not in a list with a free slot, adding succeeds, and removing it again restores all eight bytes. |
| HidReport.RemoveThenAdd | src/key.c:28-59 | Releasing a held code and pressing it again moves it to the end of the list. |
| KeyReport.KeyCodesDispatched | src/key.c:10-20 | The usage table covers positions 0..0x8D. Each entry is one of: no key; a keyboard usage from 0x04 on; a modifier; a vendor usage. |
| KeyReport.UsageBit | src/key.c:72 | The bit a modifier or vendor usage drives is its distance from the first code of its range. |
| KeyReport.ForcingKeepsOtherBits | src/key.c:72 | Setting or clearing one bit keeps every other bit of the byte. |
| KeyReport.Press | src/key.c:65-75 | Dispatch on the usage code. Codes 0, 0xE8..0xEF and 0xF8..0xFF change nothing. A list usage adds to the list and sets the overflow flag exactly when a new code meets a full list. A modifier sets only its bit of byte 0 of the keyboard report. A vendor usage sets only its bit of byte 0 of the extended report. |
| KeyReport.Release | src/key.c:83-93 | The same dispatch. A list usage is removed from the list, and the overflow flag is cleared exactly when the code was listed. Modifier and vendor usages clear only their bit. |
| KeyReport.AddListKey | src/key.c:68-70 | Header and extended report kept. The list becomes the pressed list, and overflow is raised exactly on a failed add. |
| KeyReport.RemoveListKey | src/key.c:86-88 | Header and extended report kept. The list loses the code, and overflow is cleared exactly on a successful removal. |
| KeyReport.ForceModifier | src/key.c:71-72 | Only the one bit of the modifier byte changes. The list is kept. |
| KeyReport.ForceVendor | src/key.c:73-74 | Only the one bit of byte 0 of the extended report changes. |
| KeyReport.PressThenRelease | src/key.c:61-95 | Pressing and releasing a usage not yet in effect restores both reports. For a list usage, this requires that the list had room. |
| KeyReport.OverflowOutlivesUntrackedRelease | src/key.c:87-88 | A press that meets a full list raises overflow and leaves the report. Releasing that same key keeps overflow set. |
| KeyReport.ReleaseOfHeldKeyClearsOverflow | src/key.c:86-88 | Releasing any listed key clears overflow and shortens the list by one. |
| Key.KeyDown | src/key.c:61-77 | Positions above 0x8D change nothing. Otherwise the reports become the press of the position's usage. Only the reports and the buffer contents change, and a packed rollover list stays packed. If all four buffers hold their control words before, they still do after. |
| Key.KeyUp | src/key.c:79-95 | Positions above 0x8D change nothing. Otherwise the reports become the release of the position's usage. Only the reports and the buffer contents change, and a packed rollover list stays packed. If all four buffers hold their control words before, they still do after. |
| Key.KeyDownLights | src/key.c:64 | A key going down lights all of its LEDs white in buffer 0 and touches nothing else. |
| Key.KeyUpDarkens | src/key.c:82 | A key going up darkens all of its LEDs in buffer 0 and touches nothing else. |
| Key.KeyDownThenUp | src/key.c:61-95 | Down then up on a position whose usage was not in effect restores both reports. |
| Key.TransitionsInColumn | src/key.c:105-117 | Every reference event of a column sample is at a position in that column, at row 0..15. |
| Key.TransitionsAscend | src/key.c:105-117 | The reference events come in strictly ascending position, which is ascending row order. |
| Key.TransitionsExact | src/key.c:102-118 | There is a down event exactly for the rows that went 0→1, and an up event exactly for those that went 1→0. |
| Key.RowScanFollowsTransitions | src/key.c:108-118 | The shifting row loop, started with the loop's invariant, calls KeyDown and KeyUp exactly for the reference events, in order. |
| Key.ScanEvents | src/key.c:102-118 | The whole row loop, on the changed rows and the new mask, calls exactly the reference events. |
| Key.ScanColumn | src/key.c:102-119 | The sample is stored as the column's mask and activity is flagged when a row is down. Beyond that only the reports and the buffer contents change. A packed rollover list stays packed. If all four buffers hold their control words before, they still do after. |
| Key.ScanRaisesTransitions | src/key.c:102-119 | The sample's effect is the reference events applied in order to the sampled state. |
| Key.ApplyEvents | src/key.c:108-118 | Applying any list of key events changes only the reports and the buffer contents, and keeps a packed rollover list packed. If all four buffers hold their control words before, they still do after. |
| Key.MaskCallback | src/key.c:97-129 | Only this column's stored mask changes, and becomes the sample. Activity is flagged when a row is down. The USB log grows only at column 13, by one flush. Of the lighting state only buffer contents change, and a packed rollover list stays packed. If all four buffers hold their control words before, they still do after. |
| Key.MaskCallbackRaisesTransitions | src/key.c:97-129 | A sample is the reference events of its changed rows applied in order, followed at column 13 by the flush. |
| Key.Flush | src/key.c:120-128 | Two submissions are appended. Endpoint 0 gets the keyboard report, or the ErrorRollOver report with the current modifiers while overflow is set. Endpoint 1 then gets the extended report. |
| Key.FullListFlushesPhantom | src/key.c:120-126 | A press that meets a full list makes the next flush report ErrorRollOver in every slot, keeping the modifier byte. |
| Key.CheckKeyState | src/key.c:174-181 | Positions whose column nibble is 14 or 15 are never held. |
| Key.KeyStateFollowsSample | src/key.c:174-181 | After a sample of column c, the key state of row r of c is bit r of the sample. |
| Key.CheckRecentKeypress | src/key.c:166-172 | The poll reports activity exactly when the toggles differ. Afterwards they are equal, and only toggle A changes. |
| Key.ActivityIsSeen | src/key.c:99-100 | A sample with any row down is seen by the next poll. |
| Key.Samples | src/key.c:97-101 | Over any series of column samples toggle A stays, and toggle B ends as its complement exactly when some sample had a row down; otherwise toggle B is unchanged. |
| Key.BurstsCollapse | src/key.c:166-172 | After any series of samples with at least one row down, one poll sees the activity and the poll after it sees nothing. |
| Key.Movement | src/key.c:134 | The int8_t delta lies in -128..127. It is zero exactly when the reading is unchanged, and equals the 8-bit difference of the readings modulo 256. |
| Key.Encoder | src/key.c:131-146 | An unchanged reading changes nothing. Otherwise the reading is stored and activity is flagged, and exactly one of two things happens. With the lighting key held, the brightness moves by twice the delta, clamped. Otherwise byte 2 of the extended report advances by the delta modulo 256. The buffer contents never change. |
| Key.WheelKeepsGap | src/key.c:145 | With the lighting key up, one reading keeps the wheel byte's distance to the last reading. |
| Key.WheelTracksEncoder | src/key.c:145 | With the lighting key up, over any series of readings the wheel byte advances by the last reading minus the first, modulo 256. |
| Key.EncoderIsActivity | src/key.c:140 | Any encoder movement is seen by the next poll. |
| Key.IndicatorsFrom | src/key.c:157-163 | The indicator loop changes only buffer 0, and keeps the brightness. If all four buffers hold their control words before, they still do after. |
| Key.IndicatorsFromShows | src/key.c:157-163 | Each indicator from bit i on is white when its bit is set and dark when clear. No other word of buffer 0 changes. |
| Key.OutReport | src/key.c:148-164 | The output report changes only buffer 0 of the lighting state. If all four buffers hold their control words before, they still do after. |
| Key.OutReportLights | src/key.c:148-164 | NumLock, CapsLock, ScrollLock and game-mode LEDs show bits 0..3 of the report. Nothing else of buffer 0 changes. |
| Key.OutReportLastWins | src/key.c:148-164 | Two output reports in a row leave the same state as the second one alone. |
| Key.Init | src/key.c:22-26 | At start-up both reports are zero with an empty, packed rollover list and no overflow. No key is held, no activity is pending, nothing has been submitted, and the lighting is in its start-up state. |
| Key.Step | src/key.c:97-181 | Every callback, poll and lighting-side operation keeps the state well formed and keeps buffer 0 out of the ready set. The lighting-side operations leave the reports alone. |
| Key.LightingStep | src/led.c:423-470 | A tick, checkout, commit of an effect buffer, clear or column write keeps the buffers full-sized, and buffer 0 out of the ready set. If all four buffers hold their control words before, they still do after. |
| Key.StepKeepsInvariant | src/key.c:28-59 | No callback, poll or lighting-side operation unpacks the rollover list, marks buffer 0 ready or overwrites a control word. |
| Key.RunKeepsInvariant | src/key.c:28-59 | Any series of inputs keeps that invariant. |
| Key.ReachableFromInit | src/led.c:330-333 | Every state reachable from start-up is well formed, has buffer 0 out of the ready set and a packed rollover list, which the key-event properties above assume. All four buffers the tick streams still hold their control words. |

## Left out

- The non-streaming branch of the LED timer interrupt, the start-packet writer, the timer and PWM ramp, and the rest of LED start-up (`src/led.c:80-341`): hardware bring-up with GPIO bit-banging, blocking SPI and delays. The control-word seeding of start-up is kept, in `LedBuffers.InitialLeds`.
- LedBuffers.Tick: models only the `LED_Mode == 0` branch of the timer interrupt (`src/led.c:64-79`). The mode is 2 while the start-packet writer runs (`src/led.c:243`) and is set to 0 by the non-streaming branch once start-up is done (`src/led.c:131`). The model has no mode variable: it starts in the state where start-up has switched to streaming.
- The DMA call and the USB input-report submission are not performed. They are recorded as appends to the logs `Leds.sent` and `Keyboard.usb`.
- Concurrency between the timer interrupt, the scan and encoder callbacks and effect producers: each C function is one atomic step. Interleavings appear only as sequences of steps, for example `LedBuffers.ApplyAll`.
- Pointers: buffers are indices 0..3, a NULL buffer or colour block is `None`, and a failed checkout returns `None` instead of NULL. The pointer difference in the commit is the buffer index itself.
- The effect generators declared in `src/effect.h` are not part of this model.
- The key header that defines `KEY_CODE_MAX` and `KEY_CODE_LIGHT` is not part of this model.
  - `KEY_CODE_MAX` is taken as 0x8D, the last index of the two 142-entry tables.
  - The lighting key is a parameter of `Key.Encoder`.
- `src/led.h` declares the colour parameters as `uint16_t`, while `src/led.c` defines them as `uint8_t`. The model follows the `uint8_t` definitions.
- LedBuffers.GetEffectBuffer: requires that buffer 0 is never marked ready.
  - The callers only commit effect buffers, and `LedBuffers.CommitKeepsPoolValid` shows commits keep this.
  - With bit 0 set and the foreground current, the C pruning loop would decrement an unsigned 0 and shift by the wrapped value, which is undefined behaviour.
- Key.Encoder: the `int8_t` conversion of the 8-bit difference is modelled as two's-complement wrap-around, which is implementation-defined in C. Adding the signed delta to the `uint8_t` wheel byte is modelled as adding the difference's 8-bit pattern, which is the same value modulo 256.
- Key.ScanColumn: the stored column mask is written on every sample, including unchanged ones. In C an unchanged column skips the store, but the stored value already equals the sample.
- Key.ScanColumn: the row loop is modelled as the list of KeyDown/KeyUp calls it makes (`Key.RowScan`), applied in order. The loop's own variables do not depend on what the calls do. The position counter `kc` is an `unsigned` (`src/key.c:105`), but KeyDown and KeyUp take a `uint8_t` (`src/key.c:61,79`). So each position is truncated to 8 bits at the call, which the model writes as reduction modulo 256. `Key.PositionFits` shows this never changes a real position.

=== FILE: common.dfy ===
/** Shared value types and bit helpers for the keyboard controller model.

    The controller works on C `uint8_t` / `uint16_t` values.  Values that are
    used as table indices, LED ids, colour components or PWM words are modelled
    as bounded integers; values that are manipulated bit by bit (report bytes,
    column masks, the activity toggles, encoder readings) are bit-vectors.
 */
module Common {

  /** An unsigned 8-bit value used as a number (id, position, colour, brightness). */
  type Byte = x: int | 0 <= x < 0x100

  /** An unsigned 16-bit value: one word of an LED frame buffer. */
  type Word = x: int | 0 <= x < 0x1_0000

  /** Conventional optional value; stands in for a C NULL pointer. */
  datatype Option<T> = None | Some(value: T)

  /** Highest matrix position with a table entry (the key tables hold 142 entries). */
  const KeyCodeMax: nat := 0x8D

  /** The byte with only bit `i` set. */
  function Bit(i: nat): bv8
    requires i < 8
  {
    (1 as bv8) << i
  }

  /** Whether bit `i` of byte `m` is set. */
  predicate Has(m: bv8, i: nat)
    requires i < 8
  {
    m & Bit(i) != 0
  }

  /** The 16-bit mask with only bit `i` set. */
  function Mask16(i: nat): (c: bv16)
    requires i < 16
    ensures c != 0 && c & (c - 1) == 0
    ensures i == 0 ==> c == 1
    ensures i < 15 ==> c & 0x8000 == 0
    ensures i == 15 ==> c == 0x8000
  {
    if i == 0 then 0x0001
    else if i == 1 then 0x0002
    else if i == 2 then 0x0004
    else if i == 3 then 0x0008
    else if i == 4 then 0x0010
    else if i == 5 then 0x0020
    else if i == 6 then 0x0040
    else if i == 7 then 0x0080
    else if i == 8 then 0x0100
    else if i == 9 then 0x0200
    else if i == 10 then 0x0400
    else if i == 11 then 0x0800
    else if i == 12 then 0x1000
    else if i == 13 then 0x2000
    else if i == 14 then 0x4000
    else 0x8000
  }

  /** Whether bit `i` of the 16-bit mask `m` is set. */
  predicate Has16(m: bv16, i: nat)
    requires i < 16
  {
    m & Mask16(i) != 0
  }

  /** Quotient and remainder by 16 of a number written as 16 * hi + lo. */
  lemma Split16(n: int, hi: int, lo: int)
    requires 0 <= lo < 16 && n == 16 * hi + lo
    ensures n / 16 == hi && n % 16 == lo
  {
  }

  // Facts about single bits of a 16-bit mask, used to follow the row loop
  // of the column callback, which shifts its masks right one bit per row.

  lemma XorMask(a: bv16, b: bv16, c: bv16)
    requires c != 0 && c & (c - 1) == 0
    ensures ((a ^ b) & c != 0) == ((a & c != 0) != (b & c != 0))
  {
  }

  /** Bit i of a ^ b is set exactly when bits i of a and b differ. */
  lemma XorBit16(a: bv16, b: bv16, i: nat)
    requires i < 16
    ensures Has16(a ^ b, i) == (Has16(a, i) != Has16(b, i))
  {
    XorMask(a, b, Mask16(i));
  }

  lemma MaskStep(i: nat)
    requires i < 15
    ensures Mask16(i + 1) == Mask16(i) << 1
  {
    if i == 0 {} else if i == 1 {} else if i == 2 {} else if i == 3 {}
    else if i == 4 {} else if i == 5 {} else if i == 6 {} else if i == 7 {}
    else if i == 8 {} else if i == 9 {} else if i == 10 {} else if i == 11 {}
    else if i == 12 {} else if i == 13 {} else {}
  }

  lemma ShiftMask(m: bv16, c: bv16)
    requires c != 0 && c & (c - 1) == 0 && c & 0x8000 == 0
    ensures ((m >> 1) & c != 0) == (m & (c << 1) != 0)
  {
  }

  /** Shifting right by one moves bit i + 1 down to bit i. */
  lemma ShiftBit16(m: bv16, i: nat)
    requires i < 15
    ensures Has16(m >> 1, i) == Has16(m, i + 1)
  {
    MaskStep(i);
    ShiftMask(m, Mask16(i));
  }

  /** Shifting right by one clears the top bit. */
  lemma ShiftTop(m: bv16)
    ensures !Has16(m >> 1, 15)
  {
    assert Mask16(15) == 0x8000;
  }

  /** The low bit, as the row loop tests it. */
  lemma LowBit(m: bv16)
    ensures (m & 1 == 1) == Has16(m, 0)
  {
    assert Mask16(0) == 1;
  }

  /** A mask is empty exactly when none of its 16 bits is set. */
  lemma ZeroBits(m: bv16)
    ensures m == 0 <==> forall i :: 0 <= i < 16 ==> !Has16(m, i)
  {
    if forall i :: 0 <= i < 16 ==> !Has16(m, i) {
      assert !Has16(m, 0); assert !Has16(m, 1); assert !Has16(m, 2); assert !Has16(m, 3);
      assert !Has16(m, 4); assert !Has16(m, 5); assert !Has16(m, 6); assert !Has16(m, 7);
      assert !Has16(m, 8); assert !Has16(m, 9); assert !Has16(m, 10); assert !Has16(m, 11);
      assert !Has16(m, 12); assert !Has16(m, 13); assert !Has16(m, 14); assert !Has16(m, 15);
    }
  }
}

=== FILE: hid_report.dfy ===
/** The keyboard input report and its six-slot rollover list.

    The report follows the boot keyboard layout of Appendix B.1 of the USB
    Device Class Definition for HID 1.11: byte 0 holds the modifier bits,
    byte 1 is reserved, and bytes 2..7 hold the usage codes of the pressed
    keys.  The controller keeps the codes as a run of distinct nonzero
    codes from byte 2 on, followed by zeros; adding appends to the run and
    removing closes the gap.
 */
module HidReport {

  /** An 8-byte HID input report. */
  type Report = r: seq<bv8> | |r| == 8 witness [0, 0, 0, 0, 0, 0, 0, 0]

  /** First and one-past-last byte of the rollover list. */
  const FirstSlot: nat := 2
  const SlotCount: nat := 6

  /** The usage code reported in every slot when more keys are held than the
      list can carry ("ErrorRollOver", Keyboard/Keypad page, section 10 of
      the HID Usage Tables 1.12). */
  const ErrorRollOver: bv8 := 0x01

  /** `r` is the rollover-error state of Appendix C of HID 1.11: the given
      modifier byte, the reserved byte 0, and ErrorRollOver in all six slots. */
  predicate PhantomState(r: Report, modifiers: bv8)
  {
    r[0] == modifiers && r[1] == 0 &&
    forall j :: FirstSlot <= j < 8 ==> r[j] == ErrorRollOver
  }

  /** The fixed overflow report with byte 0 replaced by the modifiers. */
  function ErrorReport(modifiers: bv8): (r: Report)
    ensures PhantomState(r, modifiers)
    ensures !Packed(r)
  {
    [modifiers, 0, 1, 1, 1, 1, 1, 1]
  }

  /** Result of a list update: whether the source routine returned true, and
      the report afterwards. */
  datatype Update = Update(ok: bool, report: Report)

  // ---------------------------------------------------------------------
  // The abstract view: a list of held usage codes
  // ---------------------------------------------------------------------

  predicate Distinct(s: seq<bv8>)
  {
    forall i, j :: 0 <= i < j < |s| ==> s[i] != s[j]
  }

  /** A valid rollover list: at most six distinct nonzero codes. */
  predicate KeyList(keys: seq<bv8>)
  {
    |keys| <= SlotCount && Distinct(keys) && forall i :: 0 <= i < |keys| ==> keys[i] != 0
  }

  /** The report with the given modifier and reserved bytes whose rollover
      list holds `keys`, padded with zeros. */
  function Layout(modifiers: bv8, reserved: bv8, keys: seq<bv8>): (r: Report)
    requires |keys| <= SlotCount
    ensures r[0] == modifiers && r[1] == reserved
    ensures forall j :: FirstSlot <= j < 8 ==>
      r[j] == if j - FirstSlot < |keys| then keys[j - FirstSlot] else 0
  {
    [modifiers, reserved] + keys + seq(SlotCount - |keys|, _ => 0 as bv8)
  }

  /** The first slot at or after `i` that holds 0, or 8 when there is none. */
  function RunEnd(r: Report, i: nat): (e: nat)
    requires FirstSlot <= i <= 8
    decreases 8 - i
    ensures i <= e <= 8
    ensures e < 8 ==> r[e] == 0
    ensures forall j :: i <= j < e ==> r[j] != 0
  {
    if i == 8 || r[i] == 0 then i else RunEnd(r, i + 1)
  }

  /** The codes of the rollover list: the nonzero run from byte 2. */
  function Keys(r: Report): (keys: seq<bv8>)
    ensures |keys| == RunEnd(r, FirstSlot) - FirstSlot <= SlotCount
    ensures forall i :: 0 <= i < |keys| ==> keys[i] != 0
  {
    r[FirstSlot..RunEnd(r, FirstSlot)]
  }

  /** The shape the controller maintains: a duplicate-free run of nonzero
      codes from byte 2, followed by zeros only. */
  predicate Packed(r: Report)
  {
    KeyList(Keys(r)) && r == Layout(r[0], r[1], Keys(r))
  }

  /** Reading back the list of a laid-out report gives the list. */
  lemma KeysOfLayout(modifiers: bv8, reserved: bv8, keys: seq<bv8>)
    requires KeyList(keys)
    ensures Keys(Layout(modifiers, reserved, keys)) == keys
    ensures Packed(Layout(modifiers, reserved, keys))
  {
    var r := Layout(modifiers, reserved, keys);
    var e := FirstSlot + |keys|;
    assert forall j :: FirstSlot <= j < e ==> r[j] != 0;
    RunEndAt(r, FirstSlot, e);
    assert r[FirstSlot..e] == keys;
  }

  /** The run from `i` ends at `e` when every byte in between is nonzero and
      byte `e` is 0 (or `e` is 8). */
  lemma {:induction false} RunEndAt(r: Report, i: nat, e: nat)
    requires FirstSlot <= i <= e <= 8
    requires forall j :: i <= j < e ==> r[j] != 0
    requires e < 8 ==> r[e] == 0
    decreases e - i
    ensures RunEnd(r, i) == e
  {
    if i < e {
      RunEndAt(r, i + 1, e);
    }
  }

  /** Reference for the removal: the list without the first occurrence of x. */
  function Without(s: seq<bv8>, x: bv8): (t: seq<bv8>)
    decreases |s|
    ensures |t| == if x in s then |s| - 1 else |s|
    ensures x !in s ==> t == s
  {
    if s == [] then []
    else if s[0] == x then s[1..]
    else [s[0]] + Without(s[1..], x)
  }

  /** Removing the code at position p of a list cuts that one entry out. */
  lemma {:induction false} WithoutAt(s: seq<bv8>, x: bv8, p: nat)
    requires p < |s| && s[p] == x
    requires forall q :: 0 <= q < p ==> s[q] != x
    decreases p
    ensures Without(s, x) == s[..p] + s[p + 1..]
  {
    if p > 0 {
      WithoutAt(s[1..], x, p - 1);
      assert s[1..][..p - 1] + s[1..][p..] == s[1..p] + s[p + 1..];
      assert [s[0]] + s[1..p] == s[..p];
    }
  }

  // ---------------------------------------------------------------------
  // AddKeyToReport
  // ---------------------------------------------------------------------

  /** The add loop from slot i on, as written: a slot already holding kc ends
      the loop with success, the first empty slot takes kc, and running off
      the end fails. */
  function AddFrom(r: Report, kc: bv8, i: nat): (u: Update)
    requires FirstSlot <= i <= 8
    decreases 8 - i
    ensures u.report[0] == r[0] && u.report[1] == r[1]
    ensures !u.ok ==> u.report == r
  {
    if i == 8 then Update(false, r)
    else if r[i] == kc then Update(true, r)
    else if r[i] == 0 then Update(true, r[i := kc])
    else AddFrom(r, kc, i + 1)
  }

  /** The list after pressing kc: unchanged when already held or when the
      six slots are taken, else extended at the end. */
  function Pressed(keys: seq<bv8>, kc: bv8): seq<bv8>
  {
    if kc in keys || |keys| == SlotCount then keys else keys + [kc]
  }

  /** Adds usage code kc to the rollover list. */
  function AddKey(r: Report, kc: bv8): (u: Update)
    ensures u.report[0] == r[0] && u.report[1] == r[1]
    ensures !u.ok ==> u.report == r
    ensures Packed(r) && kc != 0 ==> AddedToList(r, kc, u)
  {
    if Packed(r) && kc != 0 then
      AddKeyPacked(r, kc);
      AddFrom(r, kc, FirstSlot)
    else
      AddFrom(r, kc, FirstSlot)
  }

  /** The add on a packed report behaves as AddsAsListed says, keeps the
      report packed, and its list becomes the pressed list. */
  predicate AddedToList(r: Report, kc: bv8, u: Update)
  {
    AddsAsListed(r, kc, u) && Packed(u.report) && Keys(u.report) == Pressed(Keys(r), kc)
  }

  /** The whole add loop on a packed report and a nonzero code. */
  lemma AddKeyPacked(r: Report, kc: bv8)
    requires Packed(r) && kc != 0
    ensures AddedToList(r, kc, AddFrom(r, kc, FirstSlot))
  {
    AddFromPacked(r, kc, FirstSlot);
    var keys := Keys(r);
    if kc !in keys && |keys| < SlotCount {
      AppendKeyList(keys, kc);
      KeysOfLayout(r[0], r[1], keys + [kc]);
    }
  }

  /** A code that is nonzero and not yet listed extends a list with room. */
  lemma AppendKeyList(keys: seq<bv8>, kc: bv8)
    requires KeyList(keys) && |keys| < SlotCount && kc != 0 && kc !in keys
    ensures KeyList(keys + [kc])
  {
  }

  /** What the add loop yields on a packed report: success without change
      when kc is held, success with kc appended when there is room, and
      failure without change when the six slots are taken. */
  predicate AddsAsListed(r: Report, kc: bv8, u: Update)
  {
    var keys := Keys(r);
    u == if kc in keys then Update(true, r)
         else if |keys| < SlotCount then Update(true, Layout(r[0], r[1], keys + [kc]))
         else Update(false, r)
  }

  /** The add loop on a packed report: it scans the run, and either finds kc,
      or writes kc at the end of the run, or fails when the run fills the
      list. */
  lemma {:induction false} AddFromPacked(r: Report, kc: bv8, i: nat)
    requires Packed(r) && kc != 0
    requires FirstSlot <= i <= RunEnd(r, FirstSlot)
    requires forall j :: FirstSlot <= j < i ==> r[j] != kc
    decreases 8 - i
    ensures AddsAsListed(r, kc, AddFrom(r, kc, i))
  {
    if i == RunEnd(r, FirstSlot) {
      AddAtRunEnd(r, kc);
    } else {
      assert r[i] == Keys(r)[i - FirstSlot];
      if r[i] != kc {
        AddFromPacked(r, kc, i + 1);
      }
    }
  }

  /** The add loop reaching the end of the run of a packed report that does
      not hold kc appends kc, or fails when the run fills the list. */
  lemma AddAtRunEnd(r: Report, kc: bv8)
    requires Packed(r) && kc != 0
    requires forall j :: FirstSlot <= j < RunEnd(r, FirstSlot) ==> r[j] != kc
    ensures AddsAsListed(r, kc, AddFrom(r, kc, RunEnd(r, FirstSlot)))
  {
    var keys := Keys(r);
    assert kc !in keys by {
      forall q | 0 <= q < |keys| ensures keys[q] != kc {
        assert keys[q] == r[FirstSlot + q];
      }
    }
    if RunEnd(r, FirstSlot) < 8 {
      AppendLayout(r[0], r[1], keys, kc);
    }
  }

  /** Writing a code into the first free slot of a laid-out list lays out
      the list extended by that code. */
  lemma AppendLayout(m: bv8, z: bv8, keys: seq<bv8>, kc: bv8)
    requires |keys| < SlotCount
    ensures Layout(m, z, keys)[FirstSlot + |keys| := kc] == Layout(m, z, keys + [kc])
  {
    var t := Layout(m, z, keys)[FirstSlot + |keys| := kc];
    var l := Layout(m, z, keys + [kc]);
    forall j | 0 <= j < 8 ensures t[j] == l[j] {
      if FirstSlot <= j && j - FirstSlot < |keys| {
        assert (keys + [kc])[j - FirstSlot] == keys[j - FirstSlot];
      }
    }
    assert t == l;
  }

  // ---------------------------------------------------------------------
  // RemoveKeyFromReport
  // ---------------------------------------------------------------------

  /** The shift loop as written: from slot i, copy the next slot down until
      a 0 has been copied or slot 7 is reached, then store 0 in the slot the
      loop stopped at. */
  function ShiftDown(r: Report, i: nat): (s: Report)
    requires FirstSlot <= i <= 7
    decreases 7 - i
    ensures s[0] == r[0] && s[1] == r[1]
  {
    if i < 7 then
      var r1 := r[i := r[i + 1]];
      if r1[i] == 0 then r1[i := 0] else ShiftDown(r1, i + 1)
    else r[i := 0]
  }

  /** Slots from i on stay zero once a zero is reached. */
  predicate ZeroTail(r: Report, i: nat)
  {
    forall j, k :: i <= j <= k < 8 && r[j] == 0 ==> r[k] == 0
  }

  /** On a report whose slots stay zero after the first zero, the shift moves
      every later slot down by one and zero-fills slot 7. */
  lemma {:induction false} ShiftDownShifts(r: Report, i: nat)
    requires FirstSlot <= i <= 7 && ZeroTail(r, i + 1)
    decreases 7 - i
    ensures forall j :: 0 <= j < i ==> ShiftDown(r, i)[j] == r[j]
    ensures forall j :: i <= j < 7 ==> ShiftDown(r, i)[j] == r[j + 1]
    ensures ShiftDown(r, i)[7] == 0
  {
    if i < 7 {
      var r1 := r[i := r[i + 1]];
      if r1[i] != 0 {
        assert ZeroTail(r1, i + 2) by {
          forall j, k | i + 2 <= j <= k < 8 && r1[j] == 0 ensures r1[k] == 0 {
            assert r[j] == 0;
          }
        }
        ShiftDownShifts(r1, i + 1);
        var s := ShiftDown(r1, i + 1);
        assert ShiftDown(r, i) == s;
        assert s[i] == r1[i];
        forall j | i < j < 7 ensures s[j] == r[j + 1] {
          assert s[j] == r1[j + 1];
        }
      } else {
        assert ShiftDown(r, i) == r1[i := 0];
        forall j | i < j < 8 ensures r[j] == 0 {
          assert r[i + 1] == 0;
        }
      }
    } else {
      assert ShiftDown(r, i) == r[i := 0];
    }
  }

  /** The remove loop from slot i on, as written: the slot holding kc is
      closed by the shift, an empty slot ends the search with failure, and so
      does running off the end. */
  function RemoveFrom(r: Report, kc: bv8, i: nat): (u: Update)
    requires FirstSlot <= i <= 8
    decreases 8 - i
    ensures u.report[0] == r[0] && u.report[1] == r[1]
    ensures !u.ok ==> u.report == r
  {
    if i == 8 then Update(false, r)
    else if r[i] == kc then Update(true, ShiftDown(r, i))
    else if r[i] == 0 then Update(false, r)
    else RemoveFrom(r, kc, i + 1)
  }

  /** Removes usage code kc from the rollover list. */
  function RemoveKey(r: Report, kc: bv8): (u: Update)
    ensures u.report[0] == r[0] && u.report[1] == r[1]
    ensures !u.ok ==> u.report == r
    ensures Packed(r) && kc != 0 ==> RemovedFromList(r, kc, u)
  {
    if Packed(r) && kc != 0 then
      RemoveKeyPacked(r, kc);
      RemoveFrom(r, kc, FirstSlot)
    else
      RemoveFrom(r, kc, FirstSlot)
  }

  /** The removal on a packed report behaves as RemovesAsListed says, keeps
      the report packed, and its list loses kc. */
  predicate RemovedFromList(r: Report, kc: bv8, u: Update)
  {
    RemovesAsListed(r, kc, u) && Packed(u.report) && Keys(u.report) == Without(Keys(r), kc)
  }

  /** The whole remove loop on a packed report and a nonzero code. */
  lemma RemoveKeyPacked(r: Report, kc: bv8)
    requires Packed(r) && kc != 0
    ensures RemovedFromList(r, kc, RemoveFrom(r, kc, FirstSlot))
  {
    RemoveFromPacked(r, kc, FirstSlot);
    var keys := Keys(r);
    if kc in keys {
      WithoutKeepsKeyList(keys, kc);
      KeysOfLayout(r[0], r[1], Without(keys, kc));
    }
  }

  /** Cutting entry p out of a list shifts the entries after it down by one. */
  lemma CutEntry(s: seq<bv8>, p: nat, t: seq<bv8>)
    requires p < |s| && t == s[..p] + s[p + 1..]
    ensures |t| == |s| - 1
    ensures forall q :: 0 <= q < p ==> t[q] == s[q]
    ensures forall q :: p <= q < |t| ==> t[q] == s[q + 1]
  {
  }

  /** Removing a code from a valid list leaves a valid list. */
  lemma WithoutKeepsKeyList(keys: seq<bv8>, x: bv8)
    requires KeyList(keys)
    ensures KeyList(Without(keys, x))
  {
    if x in keys {
      var p := FirstIndex(keys, x);
      WithoutAt(keys, x, p);
      var t := keys[..p] + keys[p + 1..];
      CutEntry(keys, p, t);
      forall a, b | 0 <= a < b < |t| ensures t[a] != t[b] {
        var a' := if a < p then a else a + 1;
        var b' := if b < p then b else b + 1;
        assert t[a] == keys[a'] && t[b] == keys[b'];
      }
    }
  }

  /** What the remove loop yields on a packed report: success with the
      list closed over kc when kc is held, failure without change otherwise. */
  predicate RemovesAsListed(r: Report, kc: bv8, u: Update)
  {
    var keys := Keys(r);
    u == if kc in keys then Update(true, Layout(r[0], r[1], Without(keys, kc)))
         else Update(false, r)
  }

  /** The remove loop on a packed report: it finds kc at its place in the run
      and closes the gap, or reports that kc is not held. */
  lemma {:induction false} RemoveFromPacked(r: Report, kc: bv8, i: nat)
    requires Packed(r) && kc != 0
    requires FirstSlot <= i <= RunEnd(r, FirstSlot)
    requires forall j :: FirstSlot <= j < i ==> r[j] != kc
    decreases 8 - i
    ensures RemovesAsListed(r, kc, RemoveFrom(r, kc, i))
  {
    if i == RunEnd(r, FirstSlot) {
      var keys := Keys(r);
      assert kc !in keys by {
        forall q | 0 <= q < |keys| ensures keys[q] != kc {
          assert keys[q] == r[FirstSlot + q];
        }
      }
    } else {
      assert r[i] == Keys(r)[i - FirstSlot];
      if r[i] == kc {
        RemoveAt(r, kc, i);
      } else {
        RemoveFromPacked(r, kc, i + 1);
      }
    }
  }

  /** The remove loop meeting kc at slot i of the run, before any other copy
      of it, closes the gap over that slot. */
  lemma RemoveAt(r: Report, kc: bv8, i: nat)
    requires Packed(r) && FirstSlot <= i < RunEnd(r, FirstSlot) && r[i] == kc
    requires forall j :: FirstSlot <= j < i ==> r[j] != kc
    ensures RemovesAsListed(r, kc, RemoveFrom(r, kc, i))
  {
    var keys := Keys(r);
    var p := i - FirstSlot;
    assert keys[p] == kc;
    WithoutAt(keys, kc, p);
    ShiftLayout(r[0], r[1], keys, p);
  }

  /** Closing the gap at list position p of a laid-out list gives the
      layout of the list without that one entry. */
  lemma ShiftLayout(m: bv8, z: bv8, keys: seq<bv8>, p: nat)
    requires KeyList(keys) && p < |keys|
    ensures ShiftDown(Layout(m, z, keys), FirstSlot + p) == Layout(m, z, keys[..p] + keys[p + 1..])
  {
    var r := Layout(m, z, keys);
    var i := FirstSlot + p;
    assert ZeroTail(r, i + 1);
    ShiftDownShifts(r, i);
    var s := ShiftDown(r, i);
    var rest := keys[..p] + keys[p + 1..];
    var l := Layout(m, z, rest);
    forall j | 0 <= j < 8 ensures s[j] == l[j] {
      if j < i {
        assert s[j] == r[j];
        if FirstSlot <= j {
          assert rest[j - FirstSlot] == keys[j - FirstSlot];
        }
      } else if j < 7 {
        assert s[j] == r[j + 1];
        if j - FirstSlot < |rest| {
          assert rest[j - FirstSlot] == keys[j - FirstSlot + 1];
        }
      }
    }
    assert s == l;
  }

  /** In a duplicate-free list, removing x removes every occurrence of x. */
  lemma WithoutRemovesAll(keys: seq<bv8>, x: bv8)
    requires Distinct(keys) && x in keys
    ensures x !in Without(keys, x)
  {
    var p := FirstIndex(keys, x);
    WithoutAt(keys, x, p);
    var rest := keys[..p] + keys[p + 1..];
    forall q | 0 <= q < |rest| ensures rest[q] != x {
      if q < p {
        assert rest[q] == keys[q];
      } else {
        assert rest[q] == keys[q + 1];
      }
    }
  }

  // ---------------------------------------------------------------------
  // Round trip
  // ---------------------------------------------------------------------

  /** Pressing and releasing a key that is not held, while the list has a
      free slot, restores all eight bytes of the report. */
  lemma AddThenRemove(r: Report, kc: bv8)
    requires Packed(r) && kc != 0 && kc !in Keys(r) && |Keys(r)| < SlotCount
    ensures AddKey(r, kc).ok
    ensures RemoveKey(AddKey(r, kc).report, kc) == Update(true, r)
  {
    var keys := Keys(r);
    var a := AddKey(r, kc).report;
    assert KeyList(keys + [kc]);
    KeysOfLayout(r[0], r[1], keys + [kc]);
    WithoutAt(keys + [kc], kc, |keys|);
    assert (keys + [kc])[..|keys|] + (keys + [kc])[|keys| + 1..] == keys;
  }

  /** Releasing a held key and pressing it again puts it at the end of the
      list: the list order records the order of the presses. */
  lemma RemoveThenAdd(r: Report, kc: bv8)
    requires Packed(r) && kc != 0 && kc in Keys(r)
    ensures var removed := RemoveKey(r, kc).report;
      Keys(AddKey(removed, kc).report) == Without(Keys(r), kc) + [kc]
  {
    var keys := Keys(r);
    var rest := Without(keys, kc);
    WithoutKeepsKeyList(keys, kc);
    KeysOfLayout(r[0], r[1], rest);
    WithoutRemovesAll(keys, kc);
    assert KeyList(rest + [kc]);
    KeysOfLayout(r[0], r[1], rest + [kc]);
  }

  /** The first position of x in s. */
  function FirstIndex(s: seq<bv8>, x: bv8): (p: nat)
    requires x in s
    ensures p < |s| && s[p] == x
    ensures forall q :: 0 <= q < p ==> s[q] != x
    decreases |s|
  {
    if s[0] == x then 0 else 1 + FirstIndex(s[1..], x)
  }
}

=== FILE: key.dfy ===
/** The key handler: the column-sample callback that turns matrix changes
    into key-down and key-up events, the per-sweep report flush, the rotary
    encoder, the host's indicator report, and the activity and key-state
    queries.  All of it acts on one combined state record, because key
    events also light the key's LEDs and the encoder may change the global
    brightness.
 */
module Key {
  import opened Common
  import opened LedTables
  import opened Led
  import opened HidReport
  import opened KeyReport
  import LedBuffers

  /** Columns of the key matrix; the sweep ends with the last one. */
  const ColumnCount: nat := 14
  const FlushColumn: nat := 13

  /** One call of the USB input-report submission: endpoint 0 carries the
      keyboard report, endpoint 1 the extended report. */
  datatype Submission = Submission(endpoint: nat, report: Report)

  /** The handler's state together with the lighting state it drives.
      `lastMask[c]` holds the pressed rows of column c as bits; the two
      toggles form the activity flip-flop; `usb` logs every submission. */
  datatype Keyboard = Keyboard(
    hid: Hid,
    toggleA: bv8,
    toggleB: bv8,
    lastMask: seq<bv16>,
    encoderOld: bv8,
    usb: seq<Submission>,
    leds: Leds)

  /** Well-formed state: one mask per column and full-sized LED buffers. */
  predicate Valid(k: Keyboard)
  {
    |k.lastMask| == ColumnCount && Shaped(k.leds)
  }

  /** The rollover list of the keyboard report is packed (see HidReport). */
  predicate ListPacked(k: Keyboard)
  {
    Packed(k.hid.report0)
  }

  /** Only the reports, the overflow flag and the buffer contents differ:
      brightness, transmission cursor and ready bits stay. */
  predicate OnlyKeyEffects(k: Keyboard, k': Keyboard)
  {
    k' == k.(hid := k'.hid, leds := k.leds.(buffers := k'.leds.buffers))
  }

  // ---------------------------------------------------------------------
  // Key events
  // ---------------------------------------------------------------------

  /** A key went down at matrix position kc: light its LEDs white and press
      its usage.  Positions past the tables are ignored. */
  function KeyDown(k: Keyboard, kc: Byte): (k': Keyboard)
    requires Valid(k)
    ensures Valid(k') && OnlyKeyEffects(k, k')
    ensures ListPacked(k) ==> ListPacked(k')
    ensures AllControlWords(k.leds) ==> AllControlWords(k'.leds)
    ensures kc > KeyCodeMax ==> k' == k
    ensures kc <= KeyCodeMax ==> k'.hid == Press(k.hid, KeyCodes[kc])
  {
    if kc <= KeyCodeMax then
      KeyCodesDispatched();
      var leds := SetKeyRgb(k.leds, kc, 0xff, 0xff, 0xff);
      k.(leds := leds, hid := Press(k.hid, KeyCodes[kc]))
    else k
  }

  /** A key went up at matrix position kc: darken its LEDs and release its
      usage.  Positions past the tables are ignored. */
  function KeyUp(k: Keyboard, kc: Byte): (k': Keyboard)
    requires Valid(k)
    ensures Valid(k') && OnlyKeyEffects(k, k')
    ensures ListPacked(k) ==> ListPacked(k')
    ensures AllControlWords(k.leds) ==> AllControlWords(k'.leds)
    ensures kc > KeyCodeMax ==> k' == k
    ensures kc <= KeyCodeMax ==> k'.hid == Release(k.hid, KeyCodes[kc])
  {
    if kc <= KeyCodeMax then
      KeyCodesDispatched();
      var leds := SetKeyRgb(k.leds, kc, 0, 0, 0);
      k.(leds := leds, hid := Release(k.hid, KeyCodes[kc]))
    else k
  }

  /** A key going down lights all of its LEDs white and touches no other
      word of the foreground buffer. */
  lemma KeyDownLights(k: Keyboard, kc: Byte)
    requires Valid(k) && kc <= KeyCodeMax
    ensures OnlyForeground(k.leds, KeyDown(k, kc).leds)
    ensures LitAsKey(k.leds, KeyDown(k, kc).leds, kc, 0xff, 0xff, 0xff)
  {
    SetKeyRgbLights(k.leds, kc, 0xff, 0xff, 0xff);
  }

  /** A key going up darkens all of its LEDs and touches no other word of
      the foreground buffer. */
  lemma KeyUpDarkens(k: Keyboard, kc: Byte)
    requires Valid(k) && kc <= KeyCodeMax
    ensures OnlyForeground(k.leds, KeyUp(k, kc).leds)
    ensures LitAsKey(k.leds, KeyUp(k, kc).leds, kc, 0, 0, 0)
  {
    SetKeyRgbLights(k.leds, kc, 0, 0, 0);
  }

  /** Pressing and releasing a key whose usage was not in effect (and, for
      a list usage, fits in the list) restores both reports. */
  lemma KeyDownThenUp(k: Keyboard, kc: Byte)
    requires Valid(k) && ListPacked(k) && kc <= KeyCodeMax
    requires var h := k.hid; var u := KeyCodes[kc];
      && (ListUsage(u) ==> u !in Keys(h.report0) && |Keys(h.report0)| < SlotCount)
      && (ModifierUsage(u) ==> !Has(h.report0[0], (u - 0xE0) as int))
      && (VendorUsage(u) ==> !Has(h.report1[0], (u - 0xF0) as int))
    ensures KeyUp(KeyDown(k, kc), kc).hid.report0 == k.hid.report0
    ensures KeyUp(KeyDown(k, kc), kc).hid.report1 == k.hid.report1
  {
    KeyCodesDispatched();
    PressThenRelease(k.hid, KeyCodes[kc]);
  }

  // ---------------------------------------------------------------------
  // Reference: the events one column sample raises
  // ---------------------------------------------------------------------

  datatype Event = Down(position: Byte) | Up(position: Byte)

  /** The events for rows row..15 of a column whose mask goes from `before`
      to `after`, in ascending row order, at position column + 16·row. */
  function Transitions(column: nat, before: bv16, after: bv16, row: nat): seq<Event>
    requires column < ColumnCount && row <= 16
    decreases 16 - row
  {
    if row == 16 then []
    else
      var rest := Transitions(column, before, after, row + 1);
      var kc := column + 16 * row;
      if Has16(before, row) == Has16(after, row) then rest
      else if Has16(after, row) then [Down(kc)] + rest
      else [Up(kc)] + rest
  }

  /** Every event lies in `column`, at a row from `row` on. */
  predicate InColumnFrom(es: seq<Event>, column: nat, row: nat)
  {
    forall i :: 0 <= i < |es| ==> es[i].position % 16 == column && row <= es[i].position / 16 < 16
  }

  predicate Ascending(es: seq<Event>)
  {
    forall i, j :: 0 <= i < j < |es| ==> es[i].position < es[j].position
  }

  /** A down event exactly for each row from `row` on that went from
      released to pressed, an up event exactly for each that went back. */
  predicate ExactFrom(es: seq<Event>, column: nat, before: bv16, after: bv16, row: nat)
    requires column < ColumnCount
  {
    forall r :: row <= r < 16 ==>
      && (Down(column + 16 * r) in es <==> !Has16(before, r) && Has16(after, r))
      && (Up(column + 16 * r) in es <==> Has16(before, r) && !Has16(after, r))
  }

  lemma {:induction false} TransitionsInColumn(column: nat, before: bv16, after: bv16, row: nat)
    requires column < ColumnCount && row <= 16
    decreases 16 - row
    ensures InColumnFrom(Transitions(column, before, after, row), column, row)
  {
    if row < 16 {
      var kc := column + 16 * row;
      assert kc % 16 == column && kc / 16 == row;
      TransitionsInColumn(column, before, after, row + 1);
    }
  }

  lemma {:induction false} TransitionsAscend(column: nat, before: bv16, after: bv16, row: nat)
    requires column < ColumnCount && row <= 16
    decreases 16 - row
    ensures Ascending(Transitions(column, before, after, row))
  {
    if row < 16 {
      TransitionsInColumn(column, before, after, row + 1);
      TransitionsAscend(column, before, after, row + 1);
    }
  }

  lemma {:induction false} TransitionsExact(column: nat, before: bv16, after: bv16, row: nat)
    requires column < ColumnCount && row <= 16
    decreases 16 - row
    ensures ExactFrom(Transitions(column, before, after, row), column, before, after, row)
  {
    if row < 16 {
      var rest := Transitions(column, before, after, row + 1);
      TransitionsInColumn(column, before, after, row + 1);
      RowAbsent(rest, column, row);
      TransitionsExact(column, before, after, row + 1);
      ExactStep(column, before, after, row, rest, Transitions(column, before, after, row));
    }
  }

  /** Adding the event of row `row`, if any, in front of the exact events of
      the later rows gives the exact events from `row` on. */
  lemma ExactStep(column: nat, before: bv16, after: bv16, row: nat, rest: seq<Event>, es: seq<Event>)
    requires column < ColumnCount && row < 16
    requires Down(column + 16 * row) !in rest && Up(column + 16 * row) !in rest
    requires ExactFrom(rest, column, before, after, row + 1)
    requires es ==
      if Has16(before, row) == Has16(after, row) then rest
      else if Has16(after, row) then [Down(column + 16 * row)] + rest
      else [Up(column + 16 * row)] + rest
    ensures ExactFrom(es, column, before, after, row)
  {
    forall r | row <= r < 16
      ensures Down(column + 16 * r) in es <==> !Has16(before, r) && Has16(after, r)
      ensures Up(column + 16 * r) in es <==> Has16(before, r) && !Has16(after, r)
    {
      if r != row {
        assert column + 16 * r != column + 16 * row;
      }
    }
  }

  /** Events of rows after `row` include none at row `row`. */
  lemma RowAbsent(es: seq<Event>, column: nat, row: nat)
    requires column < ColumnCount && row < 16 && InColumnFrom(es, column, row + 1)
    ensures Down(column + 16 * row) !in es && Up(column + 16 * row) !in es
  {
    var kc := column + 16 * row;
    Split16(kc, row, column);
    forall i | 0 <= i < |es| ensures es[i].position != kc {
      assert es[i].position / 16 >= row + 1;
    }
  }

  function Apply(k: Keyboard, e: Event): (k': Keyboard)
    requires Valid(k)
    ensures Valid(k') && OnlyKeyEffects(k, k')
    ensures ListPacked(k) ==> ListPacked(k')
    ensures AllControlWords(k.leds) ==> AllControlWords(k'.leds)
  {
    match e
    case Down(kc) => KeyDown(k, kc)
    case Up(kc) => KeyUp(k, kc)
  }

  function ApplyEvents(k: Keyboard, es: seq<Event>): (k': Keyboard)
    requires Valid(k)
    decreases |es|
    ensures Valid(k') && OnlyKeyEffects(k, k')
    ensures ListPacked(k) ==> ListPacked(k')
    ensures AllControlWords(k.leds) ==> AllControlWords(k'.leds)
  {
    if es == [] then k else ApplyEvents(Apply(k, es[0]), es[1..])
  }

  // ---------------------------------------------------------------------
  // ADC_MaskCallback
  // ---------------------------------------------------------------------

  /** The row loop as written, listing the calls it makes: `mask` holds
      the changed rows and `bits` the new state, both shifted right once
      per row; a changed row calls KeyDown or KeyUp at the 8-bit position
      column + 16·row, and the loop ends when no changed row is left.  The
      loop's own variables never depend on what the calls do, so running
      the calls as the loop reaches them is applying this list in order. */
  function RowScan(column: nat, row: nat, mask: bv16, bits: bv16): seq<Event>
    decreases mask as int
  {
    if mask == 0 then []
    else
      var kc := (column + 16 * row) % 256;
      var rest := RowScan(column, row + 1, mask >> 1, bits >> 1);
      if mask & 1 == 1 then
        (if bits & 1 == 1 then [Down(kc)] else [Up(kc)]) + rest
      else rest
  }

  /** The row loop lists exactly the reference events, in order: started
      at row `row` with `mask` holding which of the rows row..15 changed
      and `bits` holding their new state, shifted down to bit 0. */
  lemma {:induction false} RowScanFollowsTransitions(column: nat, before: bv16, after: bv16, row: nat, mask: bv16, bits: bv16)
    requires column < ColumnCount && row <= 16
    requires RowsAhead(before, after, row, mask, bits)
    decreases 16 - row
    ensures RowScan(column, row, mask, bits) == Transitions(column, before, after, row)
  {
    ZeroBits(mask);
    if mask == 0 {
      forall j | row <= j < 16
        ensures Has16(before, j) == Has16(after, j)
      {
        assert !Has16(mask, j - row);
      }
      NoTransitionsLeft(column, before, after, row);
    } else {
      assert row < 16;
      LowBit(mask);
      LowBit(bits);
      var m1, b1 := mask >> 1, bits >> 1;
      ShiftedRows(before, after, row, mask, bits, m1, b1);
      RowScanFollowsTransitions(column, before, after, row + 1, m1, b1);
      PositionFits(column, row);
      var kc := column + 16 * row;
      var rest := Transitions(column, before, after, row + 1);
      RowScanStep(column, row, mask, bits, kc, rest);
      assert Has16(mask, 0) == (Has16(before, row) != Has16(after, row));
      assert Has16(bits, 0) == Has16(after, row);
    }
  }

  /** The row loop's invariant, carried from one row to the next. */
  predicate RowsAhead(before: bv16, after: bv16, row: nat, mask: bv16, bits: bv16)
  {
    && (forall i :: 0 <= i < 16 ==> Has16(mask, i) == (row + i < 16 && Has16(before, row + i) != Has16(after, row + i)))
    && (forall i :: 0 <= i < 16 && row + i < 16 ==> Has16(bits, i) == Has16(after, row + i))
  }

  /** Shifting both masks right by one moves the invariant on to the next row. */
  lemma ShiftedRows(before: bv16, after: bv16, row: nat, mask: bv16, bits: bv16, m1: bv16, b1: bv16)
    requires row < 16 && RowsAhead(before, after, row, mask, bits)
    requires m1 == mask >> 1 && b1 == bits >> 1
    ensures RowsAhead(before, after, row + 1, m1, b1)
  {
    forall i | 0 <= i < 16
      ensures Has16(m1, i) == (row + 1 + i < 16 && Has16(before, row + 1 + i) != Has16(after, row + 1 + i))
    {
      if i < 15 { ShiftBit16(mask, i); } else { ShiftTop(mask); }
    }
    forall i | 0 <= i < 16 && row + 1 + i < 16
      ensures Has16(b1, i) == Has16(after, row + 1 + i)
    {
      ShiftBit16(bits, i);
    }
  }

  /** The invariant holds at row 0 for the loop's starting masks. */
  lemma FirstRow(before: bv16, after: bv16)
    ensures RowsAhead(before, after, 0, after ^ before, after)
  {
    forall i | 0 <= i < 16
      ensures Has16(after ^ before, i) == (Has16(before, i) != Has16(after, i))
    {
      XorBit16(after, before, i);
    }
  }

  /** One turn of the row loop. */
  lemma RowScanStep(column: nat, row: nat, mask: bv16, bits: bv16, kc: Byte, rest: seq<Event>)
    requires mask != 0 && kc == (column + 16 * row) % 256
    requires rest == RowScan(column, row + 1, mask >> 1, bits >> 1)
    ensures mask & 1 != 1 ==> RowScan(column, row, mask, bits) == rest
    ensures mask & 1 == 1 && bits & 1 == 1 ==> RowScan(column, row, mask, bits) == [Down(kc)] + rest
    ensures mask & 1 == 1 && bits & 1 != 1 ==> RowScan(column, row, mask, bits) == [Up(kc)] + rest
  {
  }

  /** A matrix position column + 16·row fits the loop's 8-bit counter. */
  lemma PositionFits(column: nat, row: nat)
    requires column < ColumnCount && row < 16
    ensures (column + 16 * row) % 256 == column + 16 * row
  {
  }

  /** Rows whose bits agree raise no event. */
  lemma {:induction false} NoTransitionsLeft(column: nat, before: bv16, after: bv16, row: nat)
    requires column < ColumnCount && row <= 16
    requires forall j :: row <= j < 16 ==> Has16(before, j) == Has16(after, j)
    decreases 16 - row
    ensures Transitions(column, before, after, row) == []
  {
    if row < 16 {
      NoTransitionsLeft(column, before, after, row + 1);
    }
  }

  /** Submissions `after` extend `before` by one sweep's flush of `h`:
      the keyboard report on endpoint 0 (the ErrorRollOver report while
      the overflow flag is set), then the extended report on endpoint 1. */
  predicate Flushed(before: seq<Submission>, after: seq<Submission>, h: Hid)
  {
    && |after| == |before| + 2 && after[..|before|] == before
    && after[|before|].endpoint == 0
    && (!h.overflow ==> after[|before|].report == h.report0)
    && (h.overflow ==> PhantomState(after[|before|].report, h.report0[0]))
    && after[|before| + 1] == Submission(1, h.report1)
  }

  /** The end-of-sweep flush. */
  function Flush(k: Keyboard): (k': Keyboard)
    ensures k' == k.(usb := k'.usb)
    ensures Flushed(k.usb, k'.usb, k.hid)
  {
    var standard := if k.hid.overflow then ErrorReport(k.hid.report0[0]) else k.hid.report0;
    k.(usb := k.usb + [Submission(0, standard), Submission(1, k.hid.report1)])
  }

  /** One sample of column `column` with pressed-row mask `mask`: the row
      loop, then at the sweep's last column the flush. */
  function MaskCallback(k: Keyboard, column: nat, mask: bv16): (k': Keyboard)
    requires Valid(k) && column < ColumnCount
    ensures Valid(k') && SampleStored(k, k', column, mask)
    ensures k'.leds == k.leds.(buffers := k'.leds.buffers)
    ensures ListPacked(k) ==> ListPacked(k')
    ensures AllControlWords(k.leds) ==> AllControlWords(k'.leds)
    ensures column != FlushColumn ==> k'.usb == k.usb
    ensures column == FlushColumn ==> Flushed(k.usb, k'.usb, k'.hid)
  {
    var k2 := ScanColumn(k, column, mask);
    if column == FlushColumn then Flush(k2) else k2
  }

  /** What a sample does to the scan state: the column's last mask becomes
      the sample, activity is noted when a row is down, and the toggle A
      and encoder reading stay. */
  predicate SampleStored(k: Keyboard, k': Keyboard, column: nat, mask: bv16)
    requires column < |k.lastMask|
  {
    && k'.lastMask == k.lastMask[column := mask]
    && k'.toggleA == k.toggleA
    && k'.toggleB == (if mask != 0 then !k.toggleA else k.toggleB)
    && k'.encoderOld == k.encoderOld
  }

  /** The state a sample leaves before its events: activity noted when any
      row is down, and the sample stored as the column's last mask (for an
      unchanged column the stored value is the one already there). */
  function Sampled(k: Keyboard, column: nat, mask: bv16): (k': Keyboard)
    requires Valid(k) && column < ColumnCount
    ensures Valid(k') && SampleStored(k, k', column, mask)
    ensures k' == k.(lastMask := k'.lastMask, toggleB := k'.toggleB)
  {
    var k1 := if mask != 0 then k.(toggleB := !k.toggleA) else k;
    k1.(lastMask := k1.lastMask[column := mask])
  }

  /** The callback up to the flush: the changed rows found by exclusive or
      with the stored mask, and KeyDown or KeyUp called for each of them
      with the row's new state.  The new state `new_mask` is the stored
      mask with the changed rows flipped, which is the sample itself. */
  function ScanColumn(k: Keyboard, column: nat, mask: bv16): (k': Keyboard)
    requires Valid(k) && column < ColumnCount
    ensures Valid(k') && OnlyKeyEffects(Sampled(k, column, mask), k')
    ensures ListPacked(k) ==> ListPacked(k')
    ensures AllControlWords(k.leds) ==> AllControlWords(k'.leds)
  {
    var changed := mask ^ k.lastMask[column];
    var s := Sampled(k, column, mask);
    if changed != 0 then ApplyEvents(s, RowScan(column, 0, changed, mask)) else s
  }

  /** The row loop raises KeyDown for exactly the rows that went 0 -> 1
      and KeyUp for exactly those that went 1 -> 0, in ascending row order. */
  lemma ScanRaisesTransitions(k: Keyboard, column: nat, mask: bv16)
    requires Valid(k) && column < ColumnCount
    ensures ScanColumn(k, column, mask) == ApplyEvents(Sampled(k, column, mask), Transitions(column, k.lastMask[column], mask, 0))
  {
    ScanEvents(column, k.lastMask[column], mask);
  }

  /** The events of one full row loop are the reference transitions. */
  lemma ScanEvents(column: nat, before: bv16, after: bv16)
    requires column < ColumnCount
    ensures RowScan(column, 0, after ^ before, after) == Transitions(column, before, after, 0)
  {
    FirstRow(before, after);
    RowScanFollowsTransitions(column, before, after, 0, after ^ before, after);
  }

  /** A sample is the reference events applied in order to the sampled
      state, followed by the flush at the end of the sweep. */
  lemma MaskCallbackRaisesTransitions(k: Keyboard, column: nat, mask: bv16)
    requires Valid(k) && column < ColumnCount
    ensures var s := ApplyEvents(Sampled(k, column, mask), Transitions(column, k.lastMask[column], mask, 0));
      MaskCallback(k, column, mask) == if column == FlushColumn then Flush(s) else s
  {
    ScanRaisesTransitions(k, column, mask);
  }

  // ---------------------------------------------------------------------
  // KEY_CheckKeyState / KEY_CheckRecentKeypress
  // ---------------------------------------------------------------------

  /** Whether the key at matrix position kc (column in the low nibble, row
      in the high nibble) is down; columns 14 and 15 do not exist. */
  function CheckKeyState(k: Keyboard, kc: Byte): (held: bool)
    requires Valid(k)
    ensures kc % 16 >= ColumnCount ==> !held
  {
    var column := kc % 16;
    if column < ColumnCount then Has16(k.lastMask[column], kc / 16) else false
  }

  /** After a sample of column c, the key state of every row of c is the
      sampled bit. */
  lemma KeyStateFollowsSample(k: Keyboard, column: nat, mask: bv16, row: nat)
    requires Valid(k) && column < ColumnCount && row < 16
    ensures CheckKeyState(MaskCallback(k, column, mask), column + 16 * row) == Has16(mask, row)
  {
    var k' := MaskCallback(k, column, mask);
    var kc := column + 16 * row;
    Split16(kc, row, column);
    assert SampleStored(k, k', column, mask);
    assert CheckKeyState(k', kc) == Has16(k'.lastMask[column], row);
  }

  datatype Poll = Poll(recent: bool, keyboard: Keyboard)

  /** Reports whether there was activity since the previous poll and
      acknowledges it. */
  function CheckRecentKeypress(k: Keyboard): (p: Poll)
    ensures p.keyboard.toggleA == p.keyboard.toggleB
    ensures p.keyboard == k.(toggleA := p.keyboard.toggleA)
    ensures p.recent <==> k.toggleA != k.toggleB
  {
    if k.toggleA == k.toggleB then Poll(false, k)
    else Poll(true, k.(toggleA := k.toggleB))
  }

  /** A sample with any pressed row is seen by the next poll. */
  lemma ActivityIsSeen(k: Keyboard, column: nat, mask: bv16)
    requires Valid(k) && column < ColumnCount && mask != 0
    ensures CheckRecentKeypress(MaskCallback(k, column, mask)).recent
  {
  }

  /** Every sample names an existing column. */
  predicate SamplesOk(samples: seq<(nat, bv16)>)
  {
    forall i :: 0 <= i < |samples| ==> samples[i].0 < ColumnCount
  }

  /** Some sample has a pressed row. */
  predicate SomeActive(samples: seq<(nat, bv16)>)
  {
    exists i :: 0 <= i < |samples| && samples[i].1 != 0
  }

  /** A series of column samples, each a (column, mask) pair, in order.
      Toggle A stays, and toggle B ends as the complement of toggle A
      exactly when some sample had a pressed row. */
  function Samples(k: Keyboard, samples: seq<(nat, bv16)>): (k': Keyboard)
    requires Valid(k) && SamplesOk(samples)
    decreases |samples|
    ensures Valid(k') && k'.toggleA == k.toggleA
    ensures k'.toggleB == if SomeActive(samples) then !k.toggleA else k.toggleB
  {
    if samples == [] then k
    else
      var k1 := MaskCallback(k, samples[0].0, samples[0].1);
      var rest := samples[1..];
      assert SamplesOk(rest) by {
        forall i | 0 <= i < |rest| ensures rest[i].0 < ColumnCount {
          assert rest[i] == samples[i + 1];
        }
      }
      ActiveSplit(samples);
      Samples(k1, rest)
  }

  /** A series has an active sample iff its first one is or the rest has. */
  lemma ActiveSplit(samples: seq<(nat, bv16)>)
    requires samples != []
    ensures SomeActive(samples) <==> samples[0].1 != 0 || SomeActive(samples[1..])
  {
    var rest := samples[1..];
    if SomeActive(samples) && samples[0].1 == 0 {
      var i :| 0 <= i < |samples| && samples[i].1 != 0;
      assert rest[i - 1] == samples[i];
    }
    if SomeActive(rest) {
      var i :| 0 <= i < |rest| && rest[i].1 != 0;
      assert samples[i + 1] == rest[i];
    }
  }

  /** Activity is a single-slot flag, not a counter: however many samples
      with pressed rows come in, one poll sees them and the next sees
      nothing. */
  lemma BurstsCollapse(k: Keyboard, samples: seq<(nat, bv16)>)
    requires Valid(k) && SamplesOk(samples) && SomeActive(samples)
    ensures var p := CheckRecentKeypress(Samples(k, samples));
      p.recent && !CheckRecentKeypress(p.keyboard).recent
  {
  }

  // ---------------------------------------------------------------------
  // TIM_EncoderCallback
  // ---------------------------------------------------------------------

  /** An 8-bit pattern n (0 <= n < 256) read as a signed `int8_t`. */
  function Int8(n: int): (s: int)
    requires 0 <= n < 256
    ensures -128 <= s < 128
    ensures s % 256 == n
  {
    if n < 0x80 then n else n - 256
  }

  /** The movement since the previous reading, as the handler's `int8_t`
      delta: the 8-bit difference of the two readings, read as signed. */
  function Movement(last: bv8, value: bv8): (d: int)
    ensures -128 <= d < 128
    ensures d == 0 <==> value == last
    ensures d % 256 == (value - last) as int
  {
    Int8((value - last) as int)
  }

  /** One encoder reading; `lightKey` is the matrix position of the
      lighting key, whose definition is not part of this model.  Adding the
      `int8_t` delta to the `uint8_t` wheel byte and truncating adds the
      delta's 8-bit pattern, which is the readings' 8-bit difference. */
  function Encoder(k: Keyboard, value: bv8, lightKey: Byte): (k': Keyboard)
    requires Valid(k)
    ensures Valid(k')
    ensures value == k.encoderOld ==> k' == k
    ensures AllControlWords(k.leds) ==> AllControlWords(k'.leds)
    ensures value != k.encoderOld ==>
      && k'.encoderOld == value && k'.toggleB == !k.toggleA
      && k'.toggleA == k.toggleA && k'.lastMask == k.lastMask && k'.usb == k.usb
    ensures value != k.encoderOld && CheckKeyState(k, lightKey) ==>
      && k'.hid == k.hid
      && k'.leds == k.leds.(brightness := Clamp(k.leds.brightness + 2 * Movement(k.encoderOld, value)))
    ensures value != k.encoderOld && !CheckKeyState(k, lightKey) ==>
      && k'.leds == k.leds
      && k'.hid == k.hid.(report1 := k.hid.report1[2 := k'.hid.report1[2]])
      && k'.hid.report1[2] == k.hid.report1[2] + (value - k.encoderOld)
  {
    if value == k.encoderOld then k
    else
      var k1 := k.(encoderOld := value, toggleB := !k.toggleA);
      if CheckKeyState(k, lightKey) then
        k1.(leds := k.leds.(brightness := AdjustBrightness(k.leds.brightness, Movement(k.encoderOld, value) * 2)))
      else
        k1.(hid := k.hid.(report1 := k.hid.report1[2 := k.hid.report1[2] + (value - k.encoderOld)]))
  }

  /** Advancing a byte by the readings' difference keeps its distance to
      the newer reading equal to its old distance to the older one. */
  lemma WheelStep(r: bv8, r': bv8, value: bv8, last: bv8)
    requires r' == r + (value - last)
    ensures r' - value == r - last
  {
  }

  /** WheelStep as an implication, so that a caller need not establish
      its premise as a separate proof obligation. */
  lemma WheelStepWhen(r: bv8, r': bv8, value: bv8, last: bv8)
    ensures r' == r + (value - last) ==> r' - value == r - last
  {
    if r' == r + (value - last) {
      WheelStep(r, r', value, last);
    }
  }

  function Encoders(k: Keyboard, values: seq<bv8>, lightKey: Byte): (k': Keyboard)
    requires Valid(k)
    decreases |values|
    ensures Valid(k') && k'.lastMask == k.lastMask
  {
    if values == [] then k else Encoders(Encoder(k, values[0], lightKey), values[1..], lightKey)
  }

  /** The wheel byte's distance to the last reading, modulo 256. */
  function WheelGap(k: Keyboard): bv8
  {
    k.hid.report1[2] - k.encoderOld
  }

  /** With the lighting key up, byte 2 of the extended report accumulates
      the encoder's movement: over any series of readings it advances by
      the last reading minus the first, modulo 256. */
  lemma {:induction false} WheelTracksEncoder(k: Keyboard, values: seq<bv8>, lightKey: Byte)
    requires Valid(k) && !CheckKeyState(k, lightKey)
    decreases |values|
    ensures WheelGap(Encoders(k, values, lightKey)) == WheelGap(k)
  {
    if values != [] {
      var k1 := Encoder(k, values[0], lightKey);
      assert k1.lastMask == k.lastMask;
      WheelTracksEncoder(k1, values[1..], lightKey);
      WheelKeepsGap(k, values[0], lightKey);
    }
  }

  /** One reading with the lighting key up keeps the wheel byte's distance
      to the last reading. */
  lemma WheelKeepsGap(k: Keyboard, value: bv8, lightKey: Byte)
    requires Valid(k) && !CheckKeyState(k, lightKey)
    ensures WheelGap(Encoder(k, value, lightKey)) == WheelGap(k)
  {
    var k' := Encoder(k, value, lightKey);
    if value != k.encoderOld {
      WheelStepWhen(k.hid.report1[2], k'.hid.report1[2], value, k.encoderOld);
    }
  }

  /** An encoder movement is activity for the next poll. */
  lemma EncoderIsActivity(k: Keyboard, value: bv8, lightKey: Byte)
    requires Valid(k) && value != k.encoderOld
    ensures CheckRecentKeypress(Encoder(k, value, lightKey)).recent
  {
  }

  // ---------------------------------------------------------------------
  // USB_HIDOutReportCallback
  // ---------------------------------------------------------------------

  /** Indicator LEDs for bits 0..3 of the host's output report. */
  const IndicatorLeds: seq<Byte> := [LedNumLock, LedCapsLock, LedScrollLock, LedGameMode]

  function Level(on: bool): Byte
  {
    if on then 0xff else 0
  }

  /** Word offsets of the indicator LEDs from index i on. */
  function IndicatorOffsets(i: nat): set<nat>
    requires i <= 4
  {
    set j | i <= j < 4 :: Offset(IndicatorLeds[j])
  }

  lemma IndicatorOffsetsSplit(i: nat)
    requires i < 4
    ensures IndicatorOffsets(i) == {Offset(IndicatorLeds[i])} + IndicatorOffsets(i + 1)
  {
    var a := IndicatorOffsets(i);
    var b := {Offset(IndicatorLeds[i])} + IndicatorOffsets(i + 1);
    forall o | o in a ensures o in b {
      var j :| i <= j < 4 && o == Offset(IndicatorLeds[j]);
      if j > i { assert o in IndicatorOffsets(i + 1); }
    }
    forall o | o in b ensures o in a {
      if o != Offset(IndicatorLeds[i]) {
        var j :| i + 1 <= j < 4 && o == Offset(IndicatorLeds[j]);
        assert o in a;
      }
    }
  }

  /** The indicator loop from bit i on: sets each indicator from its bit. */
  function IndicatorsFrom(l: Leds, report: bv8, i: nat): (m: Leds)
    requires Shaped(l) && i <= 4
    decreases 4 - i
    ensures Shaped(m) && OnlyForeground(l, m) && m.brightness == l.brightness
    ensures AllControlWords(l) ==> AllControlWords(m)
  {
    if i == 4 then l
    else
      var c := Level(Has(report, i));
      IndicatorsFrom(SetLedRgb(l, IndicatorLeds[i], c, c, c), report, i + 1)
  }

  /** Each indicator from i on is lit white when its bit is set and dark
      when it is clear, and no other word of buffer 0 changes. */
  predicate IndicatorsShown(l: Leds, m: Leds, report: bv8, i: nat)
    requires Shaped(l) && Shaped(m) && i <= 4
  {
    && SameExcept(l.buffers[0], m.buffers[0], IndicatorOffsets(i))
    && forall j :: i <= j < 4 ==>
         var c := Level(Has(report, j));
         Shows(m.buffers[0], IndicatorLeds[j], c, c, c, l.brightness)
  }

  lemma {:induction false} IndicatorsFromShows(l: Leds, report: bv8, i: nat)
    requires Shaped(l) && i <= 4
    decreases 4 - i
    ensures IndicatorsShown(l, IndicatorsFrom(l, report, i), report, i)
  {
    if i < 4 {
      var c := Level(Has(report, i));
      var l1 := SetLedRgb(l, IndicatorLeds[i], c, c, c);
      var m := IndicatorsFrom(l1, report, i + 1);
      IndicatorsFromShows(l1, report, i + 1);
      assert Offset(IndicatorLeds[i]) !in IndicatorOffsets(i + 1);
      ShowsKept(l1.buffers[0], m.buffers[0], IndicatorOffsets(i + 1), IndicatorLeds[i], c, c, c, l.brightness);
      IndicatorOffsetsSplit(i);
      SameExceptChain(l.buffers[0], l1.buffers[0], m.buffers[0], {Offset(IndicatorLeds[i])}, IndicatorOffsets(i + 1));
    }
  }

  /** The host's output report: sets the four indicators from its bits. */
  function OutReport(k: Keyboard, report: bv8): (k': Keyboard)
    requires Valid(k)
    ensures Valid(k') && k' == k.(leds := k'.leds) && OnlyForeground(k.leds, k'.leds)
    ensures AllControlWords(k.leds) ==> AllControlWords(k'.leds)
  {
    k.(leds := IndicatorsFrom(k.leds, report, 0))
  }

  /** After an output report the four indicators show its bits 0..3 and
      nothing else of the foreground buffer changed. */
  lemma OutReportLights(k: Keyboard, report: bv8)
    requires Valid(k)
    ensures IndicatorsShown(k.leds, OutReport(k, report).leds, report, 0)
  {
    IndicatorsFromShows(k.leds, report, 0);
  }

  /** Two foreground buffers that both show the same report's indicators
      over the same base are equal. */
  lemma ShownDetermines(l: Leds, m1: Leds, m2: Leds, report: bv8)
    requires Shaped(l) && Shaped(m1) && Shaped(m2)
    requires IndicatorsShown(l, m1, report, 0) && IndicatorsShown(l, m2, report, 0)
    ensures m1.buffers[0] == m2.buffers[0]
  {
    var f := m1.buffers[0];
    var g := m2.buffers[0];
    forall p, o | 0 <= p < 3 && 0 <= o < 256 ensures g[p][o] == f[p][o] {
      if o in IndicatorOffsets(0) {
        var j :| 0 <= j < 4 && o == Offset(IndicatorLeds[j]);
        var c := Level(Has(report, j));
        ShowsDetermines(f, g, IndicatorLeds[j], c, c, c, l.brightness);
      }
    }
    FrameEquality(f, g);
  }

  /** Only the latest output report matters: applying a second one gives
      the same state as applying it alone. */
  lemma OutReportLastWins(k: Keyboard, a: bv8, b: bv8)
    requires Valid(k)
    ensures OutReport(OutReport(k, a), b) == OutReport(k, b)
  {
    var k1 := OutReport(k, a);
    var x := OutReport(k1, b);
    var y := OutReport(k, b);
    var offs := IndicatorOffsets(0);
    OutReportLights(k, a);
    OutReportLights(k1, b);
    OutReportLights(k, b);
    SameExceptChain(k.leds.buffers[0], k1.leds.buffers[0], x.leds.buffers[0], offs, offs);
    assert offs + offs == offs;
    assert IndicatorsShown(k.leds, x.leds, b, 0);
    ShownDetermines(k.leds, x.leds, y.leds, b);
    assert x.leds.buffers == k.leds.buffers[0 := x.leds.buffers[0]];
  }

  // ---------------------------------------------------------------------
  // Overflow flushing
  // ---------------------------------------------------------------------

  /** A press that finds the list full makes the next end-of-sweep flush
      report ErrorRollOver in every slot, keeping the modifier byte. */
  lemma FullListFlushesPhantom(k: Keyboard, kc: Byte)
    requires Valid(k) && ListPacked(k) && kc <= KeyCodeMax
    requires ListUsage(KeyCodes[kc])
    requires KeyCodes[kc] !in Keys(k.hid.report0) && |Keys(k.hid.report0)| == SlotCount
    ensures var f := Flush(KeyDown(k, kc));
      PhantomState(f.usb[|k.usb|].report, k.hid.report0[0])
  {
  }

  // ---------------------------------------------------------------------
  // Start-up state and reachable states
  // ---------------------------------------------------------------------

  /** The state at start-up: both reports zero with no overflow, the
      toggles and every column's last mask zero, the encoder's previous
      reading zero, nothing submitted, and the lighting at start-up. */
  function Init(): (k: Keyboard)
    ensures Valid(k) && ListPacked(k) && LedBuffers.PoolValid(k.leds.ready) && AllControlWords(k.leds)
    ensures Keys(k.hid.report0) == [] && k.hid.report0[0] == 0 && !k.hid.overflow
    ensures forall kc: Byte :: !CheckKeyState(k, kc)
    ensures !CheckRecentKeypress(k).recent
    ensures k.leds == LedBuffers.InitialLeds() && k.usb == []
  {
    var zero: Report := [0, 0, 0, 0, 0, 0, 0, 0];
    KeysOfLayout(0, 0, []);
    assert Layout(0, 0, []) == zero;
    Keyboard(Hid(zero, zero, false), 0, 0, seq(ColumnCount, _ => 0), 0, [], LedBuffers.InitialLeds())
  }

  /** One thing that can happen to the controller: a column sample, an
      encoder reading, an output report from the host, an activity poll,
      or a step of the lighting side (a transmission tick, an effect
      buffer checkout, a commit, a clear, or a column written by an effect
      into some buffer). */
  datatype Input =
    | ColumnSample(column: nat, mask: bv16)
    | EncoderReading(value: bv8)
    | HostReport(report: bv8)
    | ActivityPoll
    | LedTick
    | TakeBuffer
    | CommitBuffer(buffer: BufferIndex)
    | ClearBuffers
    | EffectColumn(target: Option<BufferIndex>, ledColumn: nat, rgb: Option<seq<Byte>>)

  /** What the callers guarantee: samples name an existing column, only
      effect buffers are committed, and a colour block has 48 bytes. */
  predicate InputOk(i: Input)
  {
    match i
    case ColumnSample(column, _) => column < ColumnCount
    case CommitBuffer(b) => 1 <= b
    case EffectColumn(_, _, rgb) => rgb.Some? ==> |rgb.value| == 48
    case _ => true
  }

  /** Inputs handled by the lighting side alone. */
  predicate LightingInput(i: Input)
  {
    i.LedTick? || i.TakeBuffer? || i.CommitBuffer? || i.ClearBuffers? || i.EffectColumn?
  }

  function LightingStep(l: Leds, i: Input): (m: Leds)
    requires Shaped(l) && LedBuffers.PoolValid(l.ready) && InputOk(i) && LightingInput(i)
    ensures Shaped(m) && LedBuffers.PoolValid(m.ready)
    ensures AllControlWords(l) ==> AllControlWords(m)
  {
    match i
    case LedTick => LedBuffers.Tick(l)
    case TakeBuffer => LedBuffers.GetEffectBuffer(l).leds
    case CommitBuffer(b) =>
      LedBuffers.CommitKeepsPoolValid(l, b);
      LedBuffers.Commit(l, b)
    case ClearBuffers => LedBuffers.ClearEffect(l)
    case EffectColumn(target, column, rgb) => ColumnEffect(l, target, column, rgb)
  }

  function Step(k: Keyboard, i: Input, lightKey: Byte): (k': Keyboard)
    requires Valid(k) && LedBuffers.PoolValid(k.leds.ready) && InputOk(i)
    ensures Valid(k') && LedBuffers.PoolValid(k'.leds.ready)
    ensures LightingInput(i) ==> k'.hid == k.hid
  {
    match i
    case ColumnSample(column, mask) => MaskCallback(k, column, mask)
    case EncoderReading(value) => Encoder(k, value, lightKey)
    case HostReport(report) => OutReport(k, report)
    case ActivityPoll => CheckRecentKeypress(k).keyboard
    case _ => k.(leds := LightingStep(k.leds, i))
  }

  /** The invariant every reachable state keeps: well formed, buffer 0
      never ready, the rollover list packed, and every buffer holding the
      control words the lighting chain needs. */
  predicate Reachable(k: Keyboard)
  {
    Valid(k) && LedBuffers.PoolValid(k.leds.ready) && ListPacked(k) && AllControlWords(k.leds)
  }

  /** Every step keeps the rollover list packed and the control words of
      every buffer in place. */
  lemma StepKeepsInvariant(k: Keyboard, i: Input, lightKey: Byte)
    requires Reachable(k) && InputOk(i)
    ensures Reachable(Step(k, i, lightKey))
  {
  }

  predicate InputsOk(inputs: seq<Input>)
  {
    forall i :: 0 <= i < |inputs| ==> InputOk(inputs[i])
  }

  /** A series of inputs, in order. */
  function Run(k: Keyboard, inputs: seq<Input>, lightKey: Byte): (k': Keyboard)
    requires Valid(k) && LedBuffers.PoolValid(k.leds.ready) && InputsOk(inputs)
    decreases |inputs|
    ensures Valid(k') && LedBuffers.PoolValid(k'.leds.ready)
  {
    if inputs == [] then k
    else
      assert InputOk(inputs[0]);
      assert InputsOk(inputs[1..]) by {
        forall i | 0 <= i < |inputs[1..]| ensures InputOk(inputs[1..][i]) {
          assert inputs[1..][i] == inputs[i + 1];
        }
      }
      Run(Step(k, inputs[0], lightKey), inputs[1..], lightKey)
  }

  /** Any series of inputs keeps the invariant. */
  lemma {:induction false} RunKeepsInvariant(k: Keyboard, inputs: seq<Input>, lightKey: Byte)
    requires Reachable(k) && InputsOk(inputs)
    decreases |inputs|
    ensures Reachable(Run(k, inputs, lightKey))
  {
    if inputs != [] {
      assert InputOk(inputs[0]);
      var k1 := Step(k, inputs[0], lightKey);
      StepKeepsInvariant(k, inputs[0], lightKey);
      assert InputsOk(inputs[1..]) by {
        forall i | 0 <= i < |inputs[1..]| ensures InputOk(inputs[1..][i]) {
          assert inputs[1..][i] == inputs[i + 1];
        }
      }
      RunKeepsInvariant(k1, inputs[1..], lightKey);
    }
  }

  /** Every state reachable from start-up is well formed, keeps buffer 0
      out of the ready set, has a packed rollover list (which the
      key-event properties above assume) and still holds the control words
      in all four buffers the transmission tick streams. */
  lemma ReachableFromInit(inputs: seq<Input>, lightKey: Byte)
    requires InputsOk(inputs)
    ensures Reachable(Run(Init(), inputs, lightKey))
  {
    RunKeepsInvariant(Init(), inputs, lightKey);
  }
}

=== FILE: key_report.dfy ===
/** The usage layer of the key handler: the key-position to usage-code
    table, and what a key press or release does to the two input reports
    (the boot keyboard report on endpoint 0 and the extended report on
    endpoint 1) and to the rollover-overflow flag.
 */
module KeyReport {
  import opened Common
  import opened HidReport

  // ---------------------------------------------------------------------
  // Usage table
  // ---------------------------------------------------------------------

  /** Usage code per matrix position, one row (16 columns) per constant;
      0 means the position has no key. */
  const UsageRow0: seq<bv8> := [0x3a, 0x29, 0x1f, 0x1e, 0x35, 0x14, 0x2b, 0x04, 0x39, 0x64, 0x1d, 0xe1, 0xe3, 0xe0, 0, 0]
  const UsageRow1: seq<bv8> := [0x3c, 0x3b, 0x20, 0x21, 0x08, 0x1a, 0x15, 0x16, 0x09, 0x07, 0x1b, 0x06, 0x8b, 0xe2, 0, 0]
  const UsageRow2: seq<bv8> := [0x3e, 0x3d, 0x24, 0x22, 0x23, 0x1c, 0x17, 0x0b, 0x0a, 0x05, 0x11, 0x19, 0x2c, 0x88, 0, 0]
  const UsageRow3: seq<bv8> := [0x3f, 0x40, 0x25, 0x26, 0x0c, 0x18, 0x12, 0x0d, 0x0f, 0x0e, 0x10, 0x37, 0x36, 0x8a, 0, 0]
  const UsageRow4: seq<bv8> := [0x42, 0x41, 0x2e, 0x27, 0x2d, 0x2f, 0x13, 0x30, 0x33, 0x34, 0x32, 0x38, 0xe7, 0xe6, 0, 0]
  const UsageRow5: seq<bv8> := [0x43, 0x45, 0x89, 0x44, 0x2a, 0x49, 0x4c, 0x4d, 0x31, 0x28, 0xe5, 0x87, 0x65, 0xe4, 0, 0]
  const UsageRow6: seq<bv8> := [0x48, 0x46, 0x53, 0x47, 0x4b, 0x4a, 0x5f, 0x4e, 0x5c, 0x59, 0x52, 0x51, 0x4f, 0x50, 0, 0]
  const UsageRow7: seq<bv8> := [0x00, 0x00, 0xf1, 0x00, 0x54, 0x61, 0x60, 0x5e, 0x5d, 0x5a, 0x5b, 0x62, 0x85, 0x63, 0, 0]
  const UsageRow8: seq<bv8> := [0xf3, 0x00, 0xf2, 0x00, 0x55, 0x56, 0x57, 0x86, 0x00, 0x00, 0x00, 0x00, 0x00, 0x58]

  const KeyCodes: seq<bv8> :=
    UsageRow0 + UsageRow1 + UsageRow2 + UsageRow3 + UsageRow4 +
    UsageRow5 + UsageRow6 + UsageRow7 + UsageRow8

  /** Usage classes, by the dispatch of the key handler. */
  predicate ListUsage(u: bv8) { 0 < u < 0xE0 }
  predicate ModifierUsage(u: bv8) { 0xE0 <= u < 0xE8 }
  predicate VendorUsage(u: bv8) { 0xF0 <= u < 0xF8 }
  predicate IgnoredUsage(u: bv8) { u == 0 || 0xE8 <= u < 0xF0 || 0xF8 <= u }

  /** A table entry the handler acts on as intended: no key, a keyboard
      usage from 0x04 on (never one of the error codes 0x01..0x03), a
      modifier, or a vendor usage. */
  predicate Dispatched(u: bv8)
  {
    u == 0 || 0x04 <= u < 0xE8 || VendorUsage(u)
  }

  predicate AllDispatched(row: seq<bv8>)
  {
    forall i :: 0 <= i < |row| ==> Dispatched(row[i])
  }

  lemma AllDispatchedConcat(a: seq<bv8>, b: seq<bv8>)
    requires AllDispatched(a) && AllDispatched(b)
    ensures AllDispatched(a + b)
  {
  }

  lemma LowRowsDispatched()
    ensures AllDispatched(UsageRow0) && AllDispatched(UsageRow1) && AllDispatched(UsageRow2)
    ensures AllDispatched(UsageRow3) && AllDispatched(UsageRow4)
  {
    assert AllDispatched(UsageRow0);
    assert AllDispatched(UsageRow1);
    assert AllDispatched(UsageRow2);
    assert AllDispatched(UsageRow3);
  }

  lemma HighRowsDispatched()
    ensures AllDispatched(UsageRow5) && AllDispatched(UsageRow6)
    ensures AllDispatched(UsageRow7) && AllDispatched(UsageRow8)
  {
    assert AllDispatched(UsageRow5);
    assert AllDispatched(UsageRow6);
    assert AllDispatched(UsageRow7);
  }

  /** The table covers positions 0..KeyCodeMax, and no entry is an error
      code or falls in the ranges 0xE8..0xEF and 0xF8..0xFF that the
      handler ignores. */
  lemma KeyCodesDispatched()
    ensures |KeyCodes| == KeyCodeMax + 1
    ensures forall kc :: 0 <= kc <= KeyCodeMax ==> Dispatched(KeyCodes[kc])
  {
    LowRowsDispatched();
    HighRowsDispatched();
    var s := UsageRow0;
    AllDispatchedConcat(s, UsageRow1);
    s := s + UsageRow1;
    AllDispatchedConcat(s, UsageRow2);
    s := s + UsageRow2;
    AllDispatchedConcat(s, UsageRow3);
    s := s + UsageRow3;
    AllDispatchedConcat(s, UsageRow4);
    s := s + UsageRow4;
    AllDispatchedConcat(s, UsageRow5);
    s := s + UsageRow5;
    AllDispatchedConcat(s, UsageRow6);
    s := s + UsageRow6;
    AllDispatchedConcat(s, UsageRow7);
    s := s + UsageRow7;
    AllDispatchedConcat(s, UsageRow8);
    s := s + UsageRow8;
    assert s == KeyCodes;
  }

  // ---------------------------------------------------------------------
  // Single bits of a report byte
  // ---------------------------------------------------------------------

  /** `n` is `m` with bit i forced to `on`: bit i of `n` is `on`, and `n`
      agrees with `m` on every other bit. */
  predicate BitForced(m: bv8, n: bv8, i: nat, on: bool)
    requires i < 8
  {
    Has(n, i) == on && n & !Bit(i) == m & !Bit(i)
  }

  /** Forcing one bit keeps each other bit, read one at a time. */
  lemma ForcingKeepsOtherBits(m: bv8, n: bv8, i: nat, on: bool, j: nat)
    requires i < 8 && j < 8 && i != j && BitForced(m, n, i, on)
    ensures Has(n, j) == Has(m, j)
  {
  }

  function SetBit(m: bv8, i: nat): (n: bv8)
    requires i < 8
    ensures BitForced(m, n, i, true)
  {
    m | Bit(i)
  }

  function ClearBit(m: bv8, i: nat): (n: bv8)
    requires i < 8
    ensures BitForced(m, n, i, false)
  {
    m & !Bit(i)
  }

  /** The bit a modifier or vendor usage drives: the low three bits of the
      code, that is, its distance from the first code of its range. */
  function UsageBit(u: bv8): (i: nat)
    ensures i < 8
    ensures ModifierUsage(u) ==> i == (u - 0xE0) as int
    ensures VendorUsage(u) ==> i == (u - 0xF0) as int
  {
    (u & 7) as int
  }

  // ---------------------------------------------------------------------
  // Report state
  // ---------------------------------------------------------------------

  /** The two input reports and the flag recording that a key could not be
      added to the full rollover list. */
  datatype Hid = Hid(report0: Report, report1: Report, overflow: bool)

  /** Key press with usage u. */
  function Press(h: Hid, u: bv8): (h': Hid)
    ensures Packed(h.report0) ==> Packed(h'.report0)
    ensures IgnoredUsage(u) ==> h' == h
    ensures ListUsage(u) && Packed(h.report0) ==>
      && h'.report0[0] == h.report0[0] && h'.report0[1] == h.report0[1]
      && Keys(h'.report0) == Pressed(Keys(h.report0), u)
      && h'.report1 == h.report1
      && h'.overflow == (h.overflow || (u !in Keys(h.report0) && |Keys(h.report0)| == SlotCount))
    ensures ModifierUsage(u) ==> ModifierForced(h, h', (u - 0xE0) as int, true)
    ensures VendorUsage(u) ==> VendorForced(h, h', (u - 0xF0) as int, true)
  {
    if u == 0 then h
    else if u < 0xE0 then AddListKey(h, u)
    else if u < 0xE8 then ForceModifier(h, UsageBit(u), true)
    else if 0xF0 <= u < 0xF8 then ForceVendor(h, UsageBit(u), true)
    else h
  }

  /** Key release with usage u. */
  function Release(h: Hid, u: bv8): (h': Hid)
    ensures Packed(h.report0) ==> Packed(h'.report0)
    ensures IgnoredUsage(u) ==> h' == h
    ensures ListUsage(u) && Packed(h.report0) ==>
      && h'.report0[0] == h.report0[0] && h'.report0[1] == h.report0[1]
      && Keys(h'.report0) == Without(Keys(h.report0), u)
      && h'.report1 == h.report1
      && h'.overflow == (h.overflow && u !in Keys(h.report0))
    ensures ModifierUsage(u) ==> ModifierForced(h, h', (u - 0xE0) as int, false)
    ensures VendorUsage(u) ==> VendorForced(h, h', (u - 0xF0) as int, false)
  {
    if u == 0 then h
    else if u < 0xE0 then RemoveListKey(h, u)
    else if u < 0xE8 then ForceModifier(h, UsageBit(u), false)
    else if 0xF0 <= u < 0xF8 then ForceVendor(h, UsageBit(u), false)
    else h
  }

  /** Only bit i of the modifier byte of the keyboard report changed, to `on`. */
  predicate ModifierForced(h: Hid, h': Hid, i: nat, on: bool)
    requires i < 8
  {
    && BitForced(h.report0[0], h'.report0[0], i, on)
    && h'.report0[1..] == h.report0[1..]
    && h'.report1 == h.report1 && h'.overflow == h.overflow
  }

  /** Only bit i of byte 0 of the extended report changed, to `on`. */
  predicate VendorForced(h: Hid, h': Hid, i: nat, on: bool)
    requires i < 8
  {
    && BitForced(h.report1[0], h'.report1[0], i, on)
    && h'.report1[1..] == h.report1[1..]
    && h'.report0 == h.report0 && h'.overflow == h.overflow
  }

  /** A list usage going down: a failed add raises the overflow flag. */
  function AddListKey(h: Hid, u: bv8): (h': Hid)
    requires ListUsage(u)
    ensures h'.report0[0] == h.report0[0] && h'.report0[1] == h.report0[1]
    ensures h'.report1 == h.report1
    ensures Packed(h.report0) ==>
      && Packed(h'.report0)
      && Keys(h'.report0) == Pressed(Keys(h.report0), u)
      && h'.overflow == (h.overflow || (u !in Keys(h.report0) && |Keys(h.report0)| == SlotCount))
  {
    var a := AddKey(h.report0, u);
    h.(report0 := a.report, overflow := if !a.ok then true else h.overflow)
  }

  /** A list usage going up: a successful removal clears the overflow flag. */
  function RemoveListKey(h: Hid, u: bv8): (h': Hid)
    requires ListUsage(u)
    ensures h'.report0[0] == h.report0[0] && h'.report0[1] == h.report0[1]
    ensures h'.report1 == h.report1
    ensures Packed(h.report0) ==>
      && Packed(h'.report0)
      && Keys(h'.report0) == Without(Keys(h.report0), u)
      && h'.overflow == (h.overflow && u !in Keys(h.report0))
  {
    var a := RemoveKey(h.report0, u);
    h.(report0 := a.report, overflow := if a.ok then false else h.overflow)
  }

  /** Sets (`|=`) or clears (`&= ~`) bit i of the modifier byte. */
  function ForceModifier(h: Hid, i: nat, on: bool): (h': Hid)
    requires i < 8
    ensures Packed(h.report0) ==> Packed(h'.report0) && Keys(h'.report0) == Keys(h.report0)
    ensures ModifierForced(h, h', i, on)
  {
    var m := h.report0[0];
    var x := if on then SetBit(m, i) else ClearBit(m, i);
    assert BitForced(m, x, i, on);
    var r := h.report0[0 := x];
    assert r[1..] == h.report0[1..];
    PackedHeader(h.report0, x);
    h.(report0 := r)
  }

  /** Sets or clears bit i of byte 0 of the extended report. */
  function ForceVendor(h: Hid, i: nat, on: bool): (h': Hid)
    requires i < 8
    ensures VendorForced(h, h', i, on)
  {
    var m := h.report1[0];
    var x := if on then SetBit(m, i) else ClearBit(m, i);
    assert BitForced(m, x, i, on);
    var r := h.report1[0 := x];
    assert r[1..] == h.report1[1..];
    h.(report1 := r)
  }

  /** Changing the modifier byte of a packed report keeps it packed with
      the same list. */
  lemma PackedHeader(r: Report, x: bv8)
    ensures Packed(r) ==> Packed(r[0 := x]) && Keys(r[0 := x]) == Keys(r)
  {
    if Packed(r) {
      var s := r[0 := x];
      var e := RunEnd(r, FirstSlot);
      RunEndAt(s, FirstSlot, e);
      assert Keys(s) == s[FirstSlot..e] == r[FirstSlot..e];
      LayoutHeader(r[0], x, r[1], Keys(r));
    }
  }

  /** Laying out with another modifier byte changes byte 0 only. */
  lemma LayoutHeader(m: bv8, x: bv8, z: bv8, keys: seq<bv8>)
    requires |keys| <= SlotCount
    ensures Layout(x, z, keys) == Layout(m, z, keys)[0 := x]
  {
    var a := Layout(x, z, keys);
    var b := Layout(m, z, keys)[0 := x];
    forall j | 0 <= j < 8 ensures a[j] == b[j] {
    }
    assert a == b;
  }

  // ---------------------------------------------------------------------
  // Press / release properties
  // ---------------------------------------------------------------------

  /** Pressing and releasing a key restores both reports, provided its
      usage was not already in effect and, for a list usage, the list had
      room for it. */
  lemma PressThenRelease(h: Hid, u: bv8)
    requires Packed(h.report0)
    requires ListUsage(u) ==> u !in Keys(h.report0) && |Keys(h.report0)| < SlotCount
    requires ModifierUsage(u) ==> !Has(h.report0[0], (u - 0xE0) as int)
    requires VendorUsage(u) ==> !Has(h.report1[0], (u - 0xF0) as int)
    ensures Release(Press(h, u), u).report0 == h.report0
    ensures Release(Press(h, u), u).report1 == h.report1
  {
    var p := Press(h, u);
    var q := Release(p, u);
    if ListUsage(u) {
      AddThenRemove(h.report0, u);
    } else if ModifierUsage(u) {
      var i := (u - 0xE0) as int;
      SetThenClear(h.report0[0], p.report0[0], q.report0[0], i);
      SameBytes(h.report0, q.report0);
    } else if VendorUsage(u) {
      var i := (u - 0xF0) as int;
      SetThenClear(h.report1[0], p.report1[0], q.report1[0], i);
      SameBytes(h.report1, q.report1);
    }
  }

  /** Setting a clear bit and clearing it again gives back the byte. */
  lemma SetThenClear(m: bv8, p: bv8, q: bv8, i: nat)
    requires i < 8 && !Has(m, i)
    requires BitForced(m, p, i, true) && BitForced(p, q, i, false)
    ensures q == m
  {
  }

  lemma SameBytes(r: Report, s: Report)
    requires r[0] == s[0] && r[1..] == s[1..]
    ensures r == s
  {
    assert r == [r[0]] + r[1..];
    assert s == [s[0]] + s[1..];
  }

  /** A press that finds the list full sets the overflow flag and leaves
      the report alone; releasing that same key afterwards does not clear
      the flag, because the key was never in the list. */
  lemma OverflowOutlivesUntrackedRelease(h: Hid, u: bv8)
    requires Packed(h.report0) && ListUsage(u)
    requires u !in Keys(h.report0) && |Keys(h.report0)| == SlotCount
    ensures Press(h, u).overflow && Press(h, u).report0 == h.report0
    ensures Release(Press(h, u), u).overflow
    ensures Release(Press(h, u), u).report0 == h.report0
  {
    var p := Press(h, u);
    assert Keys(p.report0) == Keys(h.report0);
    assert p.report0 == Layout(p.report0[0], p.report0[1], Keys(p.report0));
  }

  /** Releasing any held list key clears the overflow flag. */
  lemma ReleaseOfHeldKeyClearsOverflow(h: Hid, u: bv8)
    requires Packed(h.report0) && ListUsage(u) && u in Keys(h.report0)
    ensures !Release(h, u).overflow
    ensures |Keys(Release(h, u).report0)| == |Keys(h.report0)| - 1
  {
  }
}

=== FILE: led.dfy ===
/** The lighting channel mapper: LED frame buffers, LED id to word-offset
    addressing, channel-order permutation, brightness scaling, key to LED
    resolution, the bulk column write used by effects, the control words
    seeded into every buffer, and the brightness clamp.
 */
module Led {
  import opened Common
  import opened LedTables

  /** One colour plane: 256 sixteen-bit words, streamed as one DMA page. */
  type Plane = seq<Word>
  /** One frame buffer: three planes. */
  type Frame = seq<Plane>
  /** Buffer 0 is the foreground buffer, buffers 1..3 are effect buffers. */
  type BufferIndex = i: nat | i < 4
  /** The plane (page) of the current buffer the next tick transmits. */
  type Page = p: nat | p < 3

  /** One DMA transfer: a plane of a buffer handed to the serial link. */
  datatype Transfer = Transfer(buffer: BufferIndex, page: Page)

  /** All lighting state: the four buffers, the global brightness, the
      transmission cursor (current buffer, page), the ready mask of the
      effect buffers and the log of DMA transfers.  The 8-bit ready mask is
      kept as the set of its set bits: i is in `ready` iff bit i is set. */
  datatype Leds = Leds(
    buffers: seq<Frame>,
    brightness: Byte,
    current: BufferIndex,
    page: Page,
    ready: set<BufferIndex>,
    sent: seq<Transfer>)

  const MinBrightness: Byte := 25
  const MaxBrightness: Byte := 255
  const InitialBrightness: Byte := 32

  predicate FrameShaped(f: Frame)
  {
    |f| == 3 && forall p :: 0 <= p < 3 ==> |f[p]| == 256
  }

  predicate Shaped(l: Leds)
  {
    |l.buffers| == 4 && forall b :: 0 <= b < 4 ==> FrameShaped(l.buffers[b])
  }

  /** `g` agrees with `f` on every word outside the offsets in `offs`. */
  predicate SameExcept(f: Frame, g: Frame, offs: set<nat>)
    requires FrameShaped(f) && FrameShaped(g)
  {
    forall p, o :: 0 <= p < 3 && 0 <= o < 256 && o !in offs ==> g[p][o] == f[p][o]
  }

  /** Changes outside A followed by changes outside B stay outside A + B. */
  lemma SameExceptChain(f: Frame, g: Frame, h: Frame, a: set<nat>, b: set<nat>)
    requires FrameShaped(f) && FrameShaped(g) && FrameShaped(h)
    requires SameExcept(f, g, a) && SameExcept(g, h, b)
    ensures SameExcept(f, h, a + b)
  {
  }

  lemma FrameEquality(f: Frame, g: Frame)
    requires FrameShaped(f) && FrameShaped(g)
    requires forall p, o :: 0 <= p < 3 && 0 <= o < 256 ==> g[p][o] == f[p][o]
    ensures f == g
  {
    assert f[0] == g[0];
    assert f[1] == g[1];
    assert f[2] == g[2];
  }

  // ---------------------------------------------------------------------
  // Addressing
  // ---------------------------------------------------------------------

  /** The LED id stored at word offset `o` (left inverse of Offset). */
  function LedAt(o: nat): int
  {
    (o % 16 - 7) * 16 + o / 16
  }

  /** Word offset of LED `id` within each plane: ((id & 0xF) << 4) + (id >> 4) + 7.
      Every offset is in the plane, sits at 7..15 modulo 16 (so it is never a
      control-word slot) and determines the id. */
  function Offset(id: Byte): (o: nat)
    requires id <= LedIdMax
    ensures o < 256
    ensures 7 <= o % 16
    ensures o / 16 == id % 16 && o % 16 == id / 16 + 7
    ensures LedAt(o) == id
  {
    var hi, lo := id % 16, id / 16 + 7;
    Split16(16 * hi + lo, hi, lo);
    16 * hi + lo
  }

  lemma OffsetInjective(a: Byte, b: Byte)
    requires a <= LedIdMax && b <= LedIdMax
    ensures Offset(a) == Offset(b) <==> a == b
  {
  }

  // ---------------------------------------------------------------------
  // Control words
  // ---------------------------------------------------------------------

  /** Word slots reserved for the lighting chain's control words: every
      multiple of 16 in plane 0, and offsets 224 and 240 in planes 1 and 2. */
  predicate ControlSlot(p: nat, o: nat)
  {
    o < 256 && ((p == 0 && o % 16 == 0) || (1 <= p < 3 && (o == 224 || o == 240)))
  }

  /** The control words of plane 0, one per multiple of 16. */
  const Plane0Control: seq<Word> := [
    0xa035, 0xa115, 0xa225, 0xa335, 0xa445, 0xa555, 0xa665, 0xa775,
    0xa885, 0xa995, 0xa0a5, 0xa0b5, 0xa0c5, 0xa0d5, 0x00e6, 0x0006
  ]

  /** Every control slot of `f` holds its control word. */
  predicate ControlWordsIntact(f: Frame)
    requires FrameShaped(f)
  {
    && (forall k :: 0 <= k < 16 ==> f[0][16 * k] == Plane0Control[k])
    && f[1][224] == 0x00e5 && f[1][240] == 0x0005
    && f[2][224] == 0x00e3 && f[2][240] == 0x0003
  }

  /** Seeds the control words of one buffer; every other word is kept. */
  function SeedControlWords(f: Frame): (g: Frame)
    requires FrameShaped(f)
    ensures FrameShaped(g)
    ensures ControlWordsIntact(g)
    ensures forall p, o :: 0 <= p < 3 && 0 <= o < 256 && !ControlSlot(p, o) ==> g[p][o] == f[p][o]
  {
    var p0 := f[0][0 := 0xa035][16 := 0xa115][32 := 0xa225][48 := 0xa335]
                  [64 := 0xa445][80 := 0xa555][96 := 0xa665][112 := 0xa775]
                  [128 := 0xa885][144 := 0xa995][160 := 0xa0a5][176 := 0xa0b5]
                  [192 := 0xa0c5][208 := 0xa0d5][224 := 0x00e6][240 := 0x0006];
    SeededPlane0(f[0], p0);
    [p0, f[1][224 := 0x00e5][240 := 0x0005], f[2][224 := 0x00e3][240 := 0x0003]]
  }

  lemma SeededPlane0(q: Plane, p0: Plane)
    requires |q| == 256
    requires p0 == q[0 := 0xa035][16 := 0xa115][32 := 0xa225][48 := 0xa335]
                  [64 := 0xa445][80 := 0xa555][96 := 0xa665][112 := 0xa775]
                  [128 := 0xa885][144 := 0xa995][160 := 0xa0a5][176 := 0xa0b5]
                  [192 := 0xa0c5][208 := 0xa0d5][224 := 0x00e6][240 := 0x0006]
    ensures forall k :: 0 <= k < 16 ==> p0[16 * k] == Plane0Control[k]
  {
    forall k | 0 <= k < 16
      ensures p0[16 * k] == Plane0Control[k]
    {
      if k == 0 {} else if k == 1 {} else if k == 2 {} else if k == 3 {}
      else if k == 4 {} else if k == 5 {} else if k == 6 {} else if k == 7 {}
      else if k == 8 {} else if k == 9 {} else if k == 10 {} else if k == 11 {}
      else if k == 12 {} else if k == 13 {} else if k == 14 {} else {}
    }
  }

  /** A write confined to pixel offsets leaves the control words alone. */
  lemma PixelWriteKeepsControlWords(f: Frame, g: Frame, offs: set<nat>)
    requires FrameShaped(f) && FrameShaped(g)
    requires SameExcept(f, g, offs)
    requires forall o :: o in offs ==> 7 <= o % 16
    requires ControlWordsIntact(f)
    ensures ControlWordsIntact(g)
  {
    forall k | 0 <= k < 16
      ensures g[0][16 * k] == f[0][16 * k]
    {
      var o := 16 * k;
      assert o % 16 == 0;
      assert o !in offs;
      assert 0 <= o < 256;
    }
    assert 224 !in offs && 240 !in offs;
    assert g[1][224] == f[1][224] && g[1][240] == f[1][240];
    assert g[2][224] == f[2][224] && g[2][240] == f[2][240];
  }

  /** Every one of the four buffers holds its control words. */
  predicate AllControlWords(l: Leds)
    requires Shaped(l)
  {
    forall b :: 0 <= b < 4 ==> ControlWordsIntact(l.buffers[b])
  }

  /** A write to buffer 0 confined to pixel offsets keeps the control words
      of all four buffers. */
  lemma ForegroundWriteKeepsControlWords(l: Leds, m: Leds, offs: set<nat>)
    requires Shaped(l) && Shaped(m) && OnlyForeground(l, m)
    requires SameExcept(l.buffers[0], m.buffers[0], offs)
    requires forall o :: o in offs ==> 7 <= o % 16
    ensures AllControlWords(l) ==> AllControlWords(m)
  {
    if AllControlWords(l) {
      PixelWriteKeepsControlWords(l.buffers[0], m.buffers[0], offs);
      forall b | 0 <= b < 4 ensures ControlWordsIntact(m.buffers[b]) {
        if b != 0 {
          assert m.buffers[b] == l.buffers[b];
        }
      }
    }
  }

  // ---------------------------------------------------------------------
  // Pixel writes
  // ---------------------------------------------------------------------

  lemma ProductFits(c: Byte, br: Byte)
    ensures 0 <= c * br <= 255 * 255
  {
    assert c * br <= 255 * br;
  }

  /** A colour component scaled by brightness; the product of two bytes
      always fits the 16-bit word, so nothing is truncated. */
  function Scale(c: Byte, br: Byte): Word
  {
    ProductFits(c, br);
    c * br
  }

  /** Frame `f` shows colour (r, g, b) at brightness `br` on LED `id`:
      red in plane WiringOf(id), green and blue in the next two planes. */
  predicate Shows(f: Frame, id: Byte, r: Byte, g: Byte, b: Byte, br: Byte)
    requires FrameShaped(f) && id <= LedIdMax
  {
    var o := Offset(id);
    var c: int := WiringOf(id);
    f[c][o] == r * br && f[(c + 1) % 3][o] == g * br && f[(c + 2) % 3][o] == b * br
  }

  /** The three-way switch on the wiring class, writing one pixel at `o`. */
  function StoreAt(f: Frame, o: nat, cls: Wiring, r: Byte, g: Byte, b: Byte, br: Byte): (h: Frame)
    requires FrameShaped(f) && o < 256
    ensures FrameShaped(h)
    ensures h[cls][o] == r * br && h[(cls + 1) % 3][o] == g * br && h[(cls + 2) % 3][o] == b * br
    ensures SameExcept(f, h, {o})
  {
    match cls
    case 0 => [f[0][o := Scale(r, br)], f[1][o := Scale(g, br)], f[2][o := Scale(b, br)]]
    case 1 => [f[0][o := Scale(b, br)], f[1][o := Scale(r, br)], f[2][o := Scale(g, br)]]
    case 2 => [f[0][o := Scale(g, br)], f[1][o := Scale(b, br)], f[2][o := Scale(r, br)]]
  }

  /** The only change of a lighting write is to buffer 0. */
  predicate OnlyForeground(l: Leds, m: Leds)
    requires Shaped(l) && Shaped(m)
  {
    m == l.(buffers := l.buffers[0 := m.buffers[0]])
  }

  /** Writes three raw channel values (no remap) to LED `id` of buffer 0;
      ids above LedIdMax are ignored. */
  function SetLed(l: Leds, id: Byte, c0: Byte, c1: Byte, c2: Byte): (m: Leds)
    requires Shaped(l)
    ensures Shaped(m) && OnlyForeground(l, m)
    ensures id > LedIdMax ==> m == l
    ensures id <= LedIdMax ==>
      && m.buffers[0][0][Offset(id)] == c0 * l.brightness
      && m.buffers[0][1][Offset(id)] == c1 * l.brightness
      && m.buffers[0][2][Offset(id)] == c2 * l.brightness
      && SameExcept(l.buffers[0], m.buffers[0], {Offset(id)})
  {
    if id <= LedIdMax then
      var o := Offset(id);
      var f := l.buffers[0];
      var g := [f[0][o := Scale(c0, l.brightness)], f[1][o := Scale(c1, l.brightness)], f[2][o := Scale(c2, l.brightness)]];
      l.(buffers := l.buffers[0 := g])
    else l
  }

  /** Lights LED `id` of buffer 0 with (r, g, b) in its own channel order,
      scaled by brightness; ids above LedIdMax are ignored. */
  function SetLedRgb(l: Leds, id: Byte, r: Byte, g: Byte, b: Byte): (m: Leds)
    requires Shaped(l)
    ensures Shaped(m) && OnlyForeground(l, m)
    ensures id > LedIdMax ==> m == l
    ensures id <= LedIdMax ==>
      Shows(m.buffers[0], id, r, g, b, l.brightness) &&
      SameExcept(l.buffers[0], m.buffers[0], {Offset(id)})
    ensures AllControlWords(l) ==> AllControlWords(m)
  {
    if id <= LedIdMax then
      var m := l.(buffers := l.buffers[0 := StoreAt(l.buffers[0], Offset(id), WiringOf(id), r, g, b, l.brightness)]);
      ForegroundWriteKeepsControlWords(l, m, {Offset(id)});
      m
    else l
  }

  // ---------------------------------------------------------------------
  // Key to LED resolution
  // ---------------------------------------------------------------------

  /** What a key-map entry designates. */
  datatype KeyLight = Dark | Single(id: Byte) | Group(start: nat)

  function Resolve(kc: Byte): KeyLight
    requires kc <= KeyCodeMax
  {
    KeyLedMapSafe();
    var e := KeyLedMap[kc];
    if e >= GroupBase then Group(e - GroupBase)
    else if e > LedIdMax then Dark
    else Single(e)
  }

  /** The LED ids a key lights. */
  function LedsOf(kc: Byte): (ids: seq<Byte>)
    requires kc <= KeyCodeMax
    ensures forall i :: 0 <= i < |ids| ==> ids[i] <= LedIdMax
  {
    KeyLedMapSafe();
    match Resolve(kc)
    case Dark => []
    case Single(id) => [id]
    case Group(p) => GroupFrom(p)
  }

  /** Offsets written when lighting the ids in `ids` (ids out of range write nothing). */
  function Touched(ids: seq<Byte>): set<nat>
  {
    if ids == [] then {}
    else (if ids[0] <= LedIdMax then {Offset(ids[0])} else {}) + Touched(ids[1..])
  }

  /** A change that leaves the word of LED `id` alone keeps what it shows. */
  lemma ShowsKept(f: Frame, g: Frame, offs: set<nat>, id: Byte, r: Byte, gr: Byte, b: Byte, br: Byte)
    requires FrameShaped(f) && FrameShaped(g) && id <= LedIdMax
    requires SameExcept(f, g, offs) && Offset(id) !in offs
    requires Shows(f, id, r, gr, b, br)
    ensures Shows(g, id, r, gr, b, br)
  {
    var o := Offset(id);
    var c: int := WiringOf(id);
    assert g[c][o] == f[c][o];
    assert g[(c + 1) % 3][o] == f[(c + 1) % 3][o];
    assert g[(c + 2) % 3][o] == f[(c + 2) % 3][o];
  }

  /** What an LED shows fixes its word in all three planes. */
  lemma ShowsDetermines(f: Frame, g: Frame, id: Byte, r: Byte, gr: Byte, b: Byte, br: Byte)
    requires FrameShaped(f) && FrameShaped(g) && id <= LedIdMax
    requires Shows(f, id, r, gr, b, br) && Shows(g, id, r, gr, b, br)
    ensures forall p :: 0 <= p < 3 ==> f[p][Offset(id)] == g[p][Offset(id)]
  {
    var o := Offset(id);
    var c: int := WiringOf(id);
    forall p | 0 <= p < 3
      ensures f[p][o] == g[p][o]
    {
      if p != c && p != (c + 1) % 3 {
        assert p == (c + 2) % 3;
      }
    }
  }

  /** Lighting one LED with a colour keeps every LED already showing that colour. */
  lemma SetLedRgbKeepsShows(l: Leds, id0: Byte, r: Byte, g: Byte, b: Byte)
    requires Shaped(l)
    ensures forall id: Byte :: id <= LedIdMax && Shows(l.buffers[0], id, r, g, b, l.brightness) ==>
      Shows(SetLedRgb(l, id0, r, g, b).buffers[0], id, r, g, b, l.brightness)
  {
    var m := SetLedRgb(l, id0, r, g, b);
    forall id: Byte | id <= LedIdMax && Shows(l.buffers[0], id, r, g, b, l.brightness)
      ensures Shows(m.buffers[0], id, r, g, b, l.brightness)
    {
      if id0 <= LedIdMax && id0 != id {
        OffsetInjective(id0, id);
        ShowsKept(l.buffers[0], m.buffers[0], {Offset(id0)}, id, r, g, b, l.brightness);
      }
    }
  }

  /** Lights every id of `ids` in turn with the same colour. */
  function SetGroup(l: Leds, ids: seq<Byte>, r: Byte, g: Byte, b: Byte): (m: Leds)
    requires Shaped(l)
    decreases |ids|
    ensures Shaped(m) && OnlyForeground(l, m)
    ensures SameExcept(l.buffers[0], m.buffers[0], Touched(ids))
    ensures AllControlWords(l) ==> AllControlWords(m)
  {
    if ids == [] then l
    else SetGroup(SetLedRgb(l, ids[0], r, g, b), ids[1..], r, g, b)
  }

  /** After a group write every listed LED shows the colour, and so does
      every LED that showed it before. */
  lemma {:induction false} SetGroupShows(l: Leds, ids: seq<Byte>, r: Byte, g: Byte, b: Byte)
    requires Shaped(l)
    decreases |ids|
    ensures forall id: Byte :: id <= LedIdMax && Shows(l.buffers[0], id, r, g, b, l.brightness) ==>
      Shows(SetGroup(l, ids, r, g, b).buffers[0], id, r, g, b, l.brightness)
    ensures forall i :: 0 <= i < |ids| && ids[i] <= LedIdMax ==>
      Shows(SetGroup(l, ids, r, g, b).buffers[0], ids[i], r, g, b, l.brightness)
  {
    if ids != [] {
      var l1 := SetLedRgb(l, ids[0], r, g, b);
      SetLedRgbKeepsShows(l, ids[0], r, g, b);
      SetGroupShows(l1, ids[1..], r, g, b);
      assert SetGroup(l, ids, r, g, b) == SetGroup(l1, ids[1..], r, g, b);
      forall i | 0 <= i < |ids| && ids[i] <= LedIdMax
        ensures Shows(SetGroup(l, ids, r, g, b).buffers[0], ids[i], r, g, b, l.brightness)
      {
        if i > 0 {
          assert ids[i] == ids[1..][i - 1];
        }
      }
    }
  }

  /** Lights the LED or LED group of key position `kc` in buffer 0: a group
      entry lights every id of its MultiMap group (LedsOf), any other entry
      is handed to SetLedRgb, which ignores ids above LedIdMax.  Positions
      above KeyCodeMax are ignored. */
  function SetKeyRgb(l: Leds, kc: Byte, r: Byte, g: Byte, b: Byte): (m: Leds)
    requires Shaped(l)
    ensures Shaped(m) && OnlyForeground(l, m)
    ensures kc > KeyCodeMax ==> m == l
    ensures AllControlWords(l) ==> AllControlWords(m)
  {
    if kc <= KeyCodeMax then
      var pos := KeyLedMap[kc];
      if pos >= GroupBase then SetGroup(l, LedsOf(kc), r, g, b)
      else SetLedRgb(l, pos, r, g, b)
    else l
  }

  /** Every LED of the key shows the colour afterwards, and no other word
      of buffer 0 changes. */
  predicate LitAsKey(l: Leds, m: Leds, kc: Byte, r: Byte, g: Byte, b: Byte)
    requires Shaped(l) && Shaped(m) && kc <= KeyCodeMax
  {
    && (forall i :: 0 <= i < |LedsOf(kc)| ==> Shows(m.buffers[0], LedsOf(kc)[i], r, g, b, l.brightness))
    && SameExcept(l.buffers[0], m.buffers[0], Touched(LedsOf(kc)))
  }

  lemma SetKeyRgbLights(l: Leds, kc: Byte, r: Byte, g: Byte, b: Byte)
    requires Shaped(l) && kc <= KeyCodeMax
    ensures LitAsKey(l, SetKeyRgb(l, kc, r, g, b), kc, r, g, b)
  {
    KeyLedMapSafe();
    var pos := KeyLedMap[kc];
    if pos >= GroupBase {
      GroupKeyLights(l, kc, r, g, b);
    } else {
      SingleKeyLights(l, kc, r, g, b);
    }
  }

  lemma GroupKeyLights(l: Leds, kc: Byte, r: Byte, g: Byte, b: Byte)
    requires Shaped(l) && kc <= KeyCodeMax && KeyLedMap[kc] >= GroupBase
    ensures LitAsKey(l, SetKeyRgb(l, kc, r, g, b), kc, r, g, b)
  {
    assert SetKeyRgb(l, kc, r, g, b) == SetGroup(l, LedsOf(kc), r, g, b);
    SetGroupLit(l, LedsOf(kc), r, g, b);
  }

  /** A group write of valid ids shows the colour on each of them and
      touches nothing else. */
  lemma SetGroupLit(l: Leds, ids: seq<Byte>, r: Byte, g: Byte, b: Byte)
    requires Shaped(l) && forall i :: 0 <= i < |ids| ==> ids[i] <= LedIdMax
    ensures forall i :: 0 <= i < |ids| ==> Shows(SetGroup(l, ids, r, g, b).buffers[0], ids[i], r, g, b, l.brightness)
    ensures SameExcept(l.buffers[0], SetGroup(l, ids, r, g, b).buffers[0], Touched(ids))
  {
    SetGroupShows(l, ids, r, g, b);
  }

  lemma SingleKeyLights(l: Leds, kc: Byte, r: Byte, g: Byte, b: Byte)
    requires Shaped(l) && kc <= KeyCodeMax && KeyLedMap[kc] < GroupBase
    ensures LitAsKey(l, SetKeyRgb(l, kc, r, g, b), kc, r, g, b)
  {
    var pos := KeyLedMap[kc];
    assert SetKeyRgb(l, kc, r, g, b) == SetLedRgb(l, pos, r, g, b);
    if pos > LedIdMax {
      assert LedsOf(kc) == [];
    } else {
      assert LedsOf(kc) == [pos] && Touched([pos]) == {Offset(pos)};
    }
  }

  /** A key whose map entry is the "no LED" entry changes nothing. */
  lemma DarkKeyIsNoOp(l: Leds, kc: Byte, r: Byte, g: Byte, b: Byte)
    requires Shaped(l) && kc <= KeyCodeMax
    requires KeyLedMap[kc] == NoLed
    ensures SetKeyRgb(l, kc, r, g, b) == l
  {
    var m := SetKeyRgb(l, kc, r, g, b);
    SingleKeyLights(l, kc, r, g, b);
    assert LedsOf(kc) == [];
    FrameEquality(l.buffers[0], m.buffers[0]);
  }

  // ---------------------------------------------------------------------
  // Effects: bulk column write
  // ---------------------------------------------------------------------

  /** LED row `j` of `column`, at word column + 7 + 16j and wired as
      wiring[j], shows red rgb[j], green rgb[16 + j] and blue rgb[32 + j]. */
  predicate ColumnLedShows(f: Frame, column: nat, wiring: seq<Wiring>, rgb: seq<Byte>, br: Byte, j: nat)
    requires FrameShaped(f) && column <= LedColumnMax && |wiring| == 16 && |rgb| == 48 && j < 16
  {
    var o := column + 7 + 16 * j;
    var c: int := wiring[j];
    f[c][o] == rgb[j] * br && f[(c + 1) % 3][o] == rgb[16 + j] * br && f[(c + 2) % 3][o] == rgb[32 + j] * br
  }

  /** The column loop from row k on: row k takes (rgb[k], rgb[16 + k], rgb[32 + k])
      at offset column + 7 + 16k with wiring class wiring[k]; the loop goes on
      while the next offset stays inside the plane. */
  function ColumnFrom(f: Frame, column: nat, wiring: seq<Wiring>, rgb: seq<Byte>, br: Byte, k: nat): (h: Frame)
    requires FrameShaped(f) && column <= LedColumnMax && |wiring| == 16 && |rgb| == 48 && k < 16
    decreases 16 - k
    ensures FrameShaped(h)
  {
    var offs := column + 7 + 16 * k;
    var f1 := StoreAt(f, offs, wiring[k], rgb[k], rgb[16 + k], rgb[32 + k], br);
    if offs + 16 < 256 then ColumnFrom(f1, column, wiring, rgb, br, k + 1) else f1
  }

  /** Offset arithmetic of the column loop: row k of `column` is LED id
      16 * column + k, at word column + 7 + 16k, and the loop ends after row 15. */
  lemma ColumnOffset(column: nat, k: nat)
    requires column <= LedColumnMax && k < 16
    ensures (16 * column + k) / 16 == column && (16 * column + k) % 16 == k
    ensures Offset(16 * column + k) == column + 7 + 16 * k
    ensures (column + 7 + 16 * k) % 16 == column + 7 && (column + 7 + 16 * k) / 16 == k
    ensures column + 7 + 16 * k + 16 < 256 <==> k < 15
  {
    var id := 16 * column + k;
    assert id % 16 == k && id / 16 == column;
  }

  /** One iteration of the column loop lights row k and nothing outside the column. */
  lemma ColumnStore(f: Frame, f1: Frame, column: nat, wiring: seq<Wiring>, rgb: seq<Byte>, br: Byte, k: nat)
    requires FrameShaped(f) && column <= LedColumnMax && |wiring| == 16 && |rgb| == 48 && k < 16
    requires f1 == StoreAt(f, column + 7 + 16 * k, wiring[k], rgb[k], rgb[16 + k], rgb[32 + k], br)
    ensures FrameShaped(f1)
    ensures ColumnLedShows(f1, column, wiring, rgb, br, k)
    ensures forall p, o :: 0 <= p < 3 && 0 <= o < 256 && (o % 16 != column + 7 || o / 16 < k) ==> f1[p][o] == f[p][o]
  {
    var offs := column + 7 + 16 * k;
    ColumnOffset(column, k);
    forall p, o | 0 <= p < 3 && 0 <= o < 256 && (o % 16 != column + 7 || o / 16 < k)
      ensures f1[p][o] == f[p][o]
    {
      assert o !in {offs};
    }
  }

  /** The rest of the loop keeps the row just written and the words outside the column. */
  lemma ColumnStep(f: Frame, f1: Frame, h: Frame, column: nat, wiring: seq<Wiring>, rgb: seq<Byte>, br: Byte, k: nat)
    requires FrameShaped(f) && FrameShaped(f1) && FrameShaped(h)
    requires column <= LedColumnMax && |wiring| == 16 && |rgb| == 48 && k < 15
    requires ColumnLedShows(f1, column, wiring, rgb, br, k)
    requires forall p, o :: 0 <= p < 3 && 0 <= o < 256 && (o % 16 != column + 7 || o / 16 < k) ==> f1[p][o] == f[p][o]
    requires forall j :: k + 1 <= j < 16 ==> ColumnLedShows(h, column, wiring, rgb, br, j)
    requires forall p, o :: 0 <= p < 3 && 0 <= o < 256 && (o % 16 != column + 7 || o / 16 < k + 1) ==> h[p][o] == f1[p][o]
    ensures forall j :: k <= j < 16 ==> ColumnLedShows(h, column, wiring, rgb, br, j)
    ensures forall p, o :: 0 <= p < 3 && 0 <= o < 256 && (o % 16 != column + 7 || o / 16 < k) ==> h[p][o] == f[p][o]
  {
    var o := column + 7 + 16 * k;
    ColumnOffset(column, k);
    assert o / 16 < k + 1;
    var c: int := wiring[k];
    assert h[c][o] == f1[c][o];
    assert h[(c + 1) % 3][o] == f1[(c + 1) % 3][o];
    assert h[(c + 2) % 3][o] == f1[(c + 2) % 3][o];
  }

  /** From row k on, the column loop lights every row of the column with its
      colour and leaves every word outside those rows of the column alone. */
  lemma {:induction false} ColumnFromLights(f: Frame, column: nat, wiring: seq<Wiring>, rgb: seq<Byte>, br: Byte, k: nat)
    requires FrameShaped(f) && column <= LedColumnMax && |wiring| == 16 && |rgb| == 48 && k < 16
    decreases 16 - k
    ensures forall j :: k <= j < 16 ==> ColumnLedShows(ColumnFrom(f, column, wiring, rgb, br, k), column, wiring, rgb, br, j)
    ensures forall p, o :: 0 <= p < 3 && 0 <= o < 256 && (o % 16 != column + 7 || o / 16 < k) ==>
      ColumnFrom(f, column, wiring, rgb, br, k)[p][o] == f[p][o]
  {
    var offs := column + 7 + 16 * k;
    var f1 := StoreAt(f, offs, wiring[k], rgb[k], rgb[16 + k], rgb[32 + k], br);
    ColumnOffset(column, k);
    ColumnStore(f, f1, column, wiring, rgb, br, k);
    if offs + 16 < 256 {
      ColumnFromLights(f1, column, wiring, rgb, br, k + 1);
      ColumnStep(f, f1, ColumnFrom(f1, column, wiring, rgb, br, k + 1), column, wiring, rgb, br, k);
    }
  }

  /** Frame h is f with every row of `column` showing its colour from the
      48-byte block and every other word unchanged. */
  predicate ColumnWritten(f: Frame, h: Frame, column: nat, rgb: seq<Byte>, br: Byte)
    requires FrameShaped(f) && FrameShaped(h) && column <= LedColumnMax && |rgb| == 48
  {
    && (forall k :: 0 <= k < 16 ==> ColumnLedShows(h, column, RgbMap[column], rgb, br, k))
    && (forall p, o :: 0 <= p < 3 && 0 <= o < 256 && o % 16 != column + 7 ==> h[p][o] == f[p][o])
  }

  /** Writes a whole LED column of an effect buffer from a 48-byte colour block
      (16 red, then 16 green, then 16 blue values).  A missing buffer, a missing
      colour block or a column above LedColumnMax leave everything unchanged. */
  function ColumnEffect(l: Leds, buffer: Option<BufferIndex>, column: nat, rgb: Option<seq<Byte>>): (m: Leds)
    requires Shaped(l)
    requires rgb.Some? ==> |rgb.value| == 48
    ensures Shaped(m) && m == l.(buffers := m.buffers)
    ensures buffer.None? || rgb.None? || column > LedColumnMax ==> m == l
    ensures buffer.Some? && rgb.Some? && column <= LedColumnMax ==>
      m == WriteColumn(l, buffer.value, column, rgb.value)
    ensures AllControlWords(l) ==> AllControlWords(m)
  {
    if buffer.None? || column > LedColumnMax || rgb.None? then l
    else
      var b := buffer.value;
      var m := WriteColumn(l, b, column, rgb.value);
      ColumnKeepsControlWords(l.buffers[b], m.buffers[b], column, rgb.value, l.brightness);
      OneBufferKeepsControlWords(l, m, b);
      m
  }

  /** m is l with only buffer b changed, and changed as ColumnWritten says. */
  predicate WroteColumn(l: Leds, m: Leds, b: BufferIndex, column: nat, rgb: seq<Byte>)
    requires Shaped(l) && column <= LedColumnMax && |rgb| == 48
  {
    && Shaped(m) && m == l.(buffers := m.buffers)
    && m.buffers == l.buffers[b := m.buffers[b]]
    && ColumnWritten(l.buffers[b], m.buffers[b], column, rgb, l.brightness)
  }

  /** The column loop on buffer b. */
  function WriteColumn(l: Leds, b: BufferIndex, column: nat, rgb: seq<Byte>): (m: Leds)
    requires Shaped(l) && column <= LedColumnMax && |rgb| == 48
    ensures WroteColumn(l, m, b, column, rgb)
  {
    var h := ColumnFrom(l.buffers[b], column, RgbMap[column], rgb, l.brightness, 0);
    ColumnLoopWrites(l.buffers[b], column, rgb, l.brightness);
    l.(buffers := l.buffers[b := h])
  }

  /** The column loop writes only words at column + 7 modulo 16, never a
      control slot, so the buffer keeps its control words. */
  lemma ColumnKeepsControlWords(f: Frame, h: Frame, column: nat, rgb: seq<Byte>, br: Byte)
    requires FrameShaped(f) && FrameShaped(h) && column <= LedColumnMax && |rgb| == 48
    requires ColumnWritten(f, h, column, rgb, br)
    ensures ControlWordsIntact(f) ==> ControlWordsIntact(h)
  {
    forall k | 0 <= k < 16
      ensures h[0][16 * k] == f[0][16 * k]
    {
      assert (16 * k) % 16 == 0;
    }
  }

  /** Replacing one buffer by one that keeps its control words keeps the
      control words of all four. */
  lemma OneBufferKeepsControlWords(l: Leds, m: Leds, b: BufferIndex)
    requires Shaped(l) && Shaped(m) && m.buffers == l.buffers[b := m.buffers[b]]
    requires ControlWordsIntact(l.buffers[b]) ==> ControlWordsIntact(m.buffers[b])
    ensures AllControlWords(l) ==> AllControlWords(m)
  {
    if AllControlWords(l) {
      forall c | 0 <= c < 4 ensures ControlWordsIntact(m.buffers[c]) {
        if c != b {
          assert m.buffers[c] == l.buffers[c];
        }
      }
    }
  }

  /** The whole column loop, from row 0, writes the column. */
  lemma ColumnLoopWrites(f: Frame, column: nat, rgb: seq<Byte>, br: Byte)
    requires FrameShaped(f) && column <= LedColumnMax && |rgb| == 48
    ensures ColumnWritten(f, ColumnFrom(f, column, RgbMap[column], rgb, br, 0), column, rgb, br)
  {
    ColumnFromLights(f, column, RgbMap[column], rgb, br, 0);
  }

  /** The column write lights LED 16 * column + k of the chosen buffer with
      the k-th colour of the block, in that LED's own channel order: the same
      per-LED property (Shows) that SetLedRgb establishes in buffer 0. */
  lemma ColumnEffectShows(l: Leds, b: BufferIndex, column: nat, rgb: seq<Byte>, k: nat)
    requires Shaped(l) && column <= LedColumnMax && |rgb| == 48 && k < 16
    ensures 16 * column + k <= LedIdMax
    ensures Shows(ColumnEffect(l, Some(b), column, Some(rgb)).buffers[b], 16 * column + k,
                  rgb[k], rgb[16 + k], rgb[32 + k], l.brightness)
  {
    var h := WriteColumn(l, b, column, rgb).buffers[b];
    ColumnLedIsShows(h, column, rgb, l.brightness, k);
  }

  /** Row k of a column, written with the column's own wiring row, is LED
      16 * column + k showing that colour. */
  lemma ColumnLedIsShows(h: Frame, column: nat, rgb: seq<Byte>, br: Byte, k: nat)
    requires FrameShaped(h) && column <= LedColumnMax && |rgb| == 48 && k < 16
    requires ColumnLedShows(h, column, RgbMap[column], rgb, br, k)
    ensures 16 * column + k <= LedIdMax
    ensures Shows(h, 16 * column + k, rgb[k], rgb[16 + k], rgb[32 + k], br)
  {
    ColumnOffset(column, k);
  }

  // ---------------------------------------------------------------------
  // Brightness
  // ---------------------------------------------------------------------

  /** Reference: x saturated into [MinBrightness, MaxBrightness]. */
  function Clamp(x: int): int
  {
    if x < MinBrightness then MinBrightness else if x > MaxBrightness then MaxBrightness else x
  }

  /** Adjusts the brightness by `delta`, saturating at 255 and 25; the final
      8-bit store never wraps because the guards keep the sum in range. */
  function AdjustBrightness(br: Byte, delta: int): (r: Byte)
    ensures r == Clamp(br + delta)
    ensures MinBrightness <= r <= MaxBrightness
  {
    if delta > 255 - br then 255
    else if delta < -(br - 25) then 25
    else (br + delta) % 256
  }

  lemma BrightnessSaturates(br: Byte)
    requires MinBrightness <= br
    ensures AdjustBrightness(br, 1000) == MaxBrightness
    ensures AdjustBrightness(br, -1000) == MinBrightness
    ensures AdjustBrightness(br, 0) == br
  {
  }
}

=== FILE: led_buffers.dfy ===
/** The effect-buffer pool and the transmission cycle.

    Effect producers check out a working buffer (1..3), write a frame into it
    and commit it, which sets its ready bit.  A periodic tick streams one
    plane (page) of the current buffer per call and, after the third page,
    decides which buffer is streamed next.  Neither side ever waits: a
    checkout that finds no free buffer returns None.
 */
module LedBuffers {
  import opened Common
  import opened Led

  /** The effect buffers; buffer 0 is the foreground buffer. */
  const EffectBuffers: set<BufferIndex> := {1, 2, 3}

  /** Only effect buffers are ever committed, so the foreground buffer never
      carries a ready bit.  The pruning walk of the checkout relies on this. */
  predicate PoolValid(ready: set<BufferIndex>)
  {
    0 !in ready
  }

  /** n zero words. */
  function Zeros(n: nat): (s: seq<Word>)
    ensures |s| == n && forall i :: 0 <= i < n ==> s[i] == 0
  {
    if n == 0 then [] else Zeros(n - 1) + [0]
  }

  /** A buffer of zero words, as the zero-initialised static buffers start. */
  function ZeroFrame(): (f: Frame)
    ensures FrameShaped(f) && forall p, o :: 0 <= p < 3 && 0 <= o < 256 ==> f[p][o] == 0
  {
    [Zeros(256), Zeros(256), Zeros(256)]
  }

  /** The lighting state after start-up: every buffer holds its control
      words and zero everywhere else, the brightness is 32, the foreground
      buffer is current at page 0, nothing is ready and nothing was sent. */
  function InitialLeds(): (l: Leds)
    ensures Shaped(l) && PoolValid(l.ready) && l.ready == {}
    ensures AllControlWords(l)
    ensures forall b, p, o :: 0 <= b < 4 && 0 <= p < 3 && 0 <= o < 256 && !ControlSlot(p, o) ==> l.buffers[b][p][o] == 0
    ensures l.brightness == InitialBrightness && l.current == 0 && l.page == 0 && l.sent == []
  {
    var f := SeedControlWords(ZeroFrame());
    Leds([f, f, f, f], InitialBrightness, 0, 0, {}, [])
  }

  // ---------------------------------------------------------------------
  // The ring 1 -> 2 -> 3 -> 1 of effect buffers
  // ---------------------------------------------------------------------

  /** One step forward in the ring; from the foreground buffer the first
      step lands on buffer 1. */
  function RingNext(i: BufferIndex): (j: BufferIndex)
    ensures 1 <= j
  {
    if i + 1 > 3 then 1 else i + 1
  }

  /** One step backward in the ring (1 steps back to 3). */
  function RingPrev(i: BufferIndex): (j: BufferIndex)
    requires 1 <= i
    ensures 1 <= j && j != i
    ensures RingNext(j) == i
  {
    if i - 1 == 0 then 3 else i - 1
  }

  /** Number of forward ring steps from `from` until `to` is reached: 1..3,
      where 3 from an effect buffer to itself is the full round. */
  function StepsTo(from: BufferIndex, to: BufferIndex): (n: nat)
    requires 1 <= to
    ensures 1 <= n <= 3
    ensures n == 1 <==> RingNext(from) == to
    ensures from != 0 ==> (n == 3 <==> from == to)
  {
    if from == 0 then to
    else if to > from then to - from
    else to - from + 3
  }

  /** Stepping forward brings every other target one step nearer. */
  lemma StepsToNext(from: BufferIndex, to: BufferIndex)
    requires 1 <= to && RingNext(from) != to
    ensures StepsTo(RingNext(from), to) == StepsTo(from, to) - 1
  {
  }

  /** The lowest effect buffer whose ready bit is clear, when there is one. */
  function SomeFree(ready: set<BufferIndex>): (f: BufferIndex)
    requires !(EffectBuffers <= ready)
    ensures 1 <= f && f !in ready
  {
    if 1 !in ready then 1 else if 2 !in ready then 2 else 3
  }

  // ---------------------------------------------------------------------
  // Checkout
  // ---------------------------------------------------------------------

  /** Reference for the pruning walk: the buffers whose ready bits the walk
      backwards from `cb` clears, namely the run of ready buffers that ends
      at `cb` when read in ring order. */
  function StaleRun(ready: set<BufferIndex>, cb: BufferIndex): set<BufferIndex>
  {
    if cb == 0 || cb !in ready then {}
    else if RingPrev(cb) !in ready then {cb}
    else if RingPrev(RingPrev(cb)) !in ready then {cb, RingPrev(cb)}
    else EffectBuffers
  }

  /** The pruning loop of the checkout as written: while the bit under the
      walk is set, clear it and step back (3 after 1). */
  function Prune(ready: set<BufferIndex>, sb: BufferIndex): (r: set<BufferIndex>)
    requires PoolValid(ready)
    decreases |ready|
    ensures r == ready - StaleRun(ready, sb)
    ensures sb !in r
  {
    if sb !in ready then ready
    else
      StaleRunStep(ready, sb);
      Prune(ready - {sb}, RingPrev(sb))
  }

  /** One step of the pruning walk: clearing `sb` and walking on from the
      buffer before it clears, in total, the stale run that ends at `sb`. */
  lemma StaleRunStep(ready: set<BufferIndex>, sb: BufferIndex)
    requires PoolValid(ready) && sb in ready
    ensures (ready - {sb}) - StaleRun(ready - {sb}, RingPrev(sb)) == ready - StaleRun(ready, sb)
  {
    var p1 := RingPrev(sb);
    var p2 := RingPrev(p1);
    assert RingPrev(p2) == sb;
    assert sb != p2;
  }

  /** The forward scan of the checkout as written: step forward (3 wraps to
      1) until a buffer with a clear ready bit is found.  It terminates
      because some effect buffer is free. */
  function Scan(ready: set<BufferIndex>, sb: BufferIndex): (r: BufferIndex)
    requires !(EffectBuffers <= ready)
    decreases StepsTo(sb, SomeFree(ready))
    ensures 1 <= r && r !in ready
    ensures forall k: BufferIndex :: 1 <= k && StepsTo(sb, k) < StepsTo(sb, r) ==> k in ready
  {
    var n := RingNext(sb);
    if n in ready then
      StepsToNext(sb, SomeFree(ready));
      var r := Scan(ready, n);
      forall k: BufferIndex | 1 <= k && StepsTo(sb, k) < StepsTo(sb, r)
        ensures k in ready
      {
        if k != n {
          StepsToNext(sb, k);
          StepsToNext(sb, r);
        }
      }
      r
    else n
  }

  /** Result of a checkout: the updated lighting state (its ready mask may
      have been pruned) and the working buffer, or None when none is free. */
  datatype Checkout = Checkout(leds: Leds, buffer: Option<BufferIndex>)

  /** The checkout refuses at once when an effect is showing but nothing is
      queued (wait for it to clear out), or when the foreground is showing
      and all three effect buffers are queued (wait for the effect to start). */
  predicate CheckoutRefused(l: Leds)
  {
    (l.current != 0 && l.ready == {}) || (l.current == 0 && l.ready == EffectBuffers)
  }

  /** Hands out a working buffer: prune the stale ready bits behind the
      current buffer, then take the first buffer after it whose ready bit is
      clear, unless that is the current buffer itself. */
  function GetEffectBuffer(l: Leds): (c: Checkout)
    requires PoolValid(l.ready)
    ensures c.leds == l.(ready := c.leds.ready)
    ensures CheckoutRefused(l) ==> c == Checkout(l, None)
    ensures !CheckoutRefused(l) ==> c.leds.ready == l.ready - StaleRun(l.ready, l.current)
    ensures PoolValid(c.leds.ready) && l.current !in c.leds.ready
    ensures c.buffer.None? <==> CheckoutRefused(l) || EffectBuffers - {l.current} <= c.leds.ready
    ensures c.buffer.Some? ==>
      var b := c.buffer.value;
      && 1 <= b && b != l.current && b !in c.leds.ready
      && forall k: BufferIndex :: 1 <= k && StepsTo(l.current, k) < StepsTo(l.current, b) ==> k in c.leds.ready
  {
    var nb := l.ready;
    var cb := l.current;
    if CheckoutRefused(l) then
      assert cb == 0 ==> cb !in nb;
      Checkout(l, None)
    else
      var pruned := Prune(nb, cb);
      var m := l.(ready := pruned);
      var sb := Scan(pruned, cb);
      if sb == cb then
        Checkout(m, None)
      else
        assert !(EffectBuffers - {cb} <= pruned);
        Checkout(m, Some(sb))
  }

  /** While the foreground is showing, a checkout hands out a buffer unless
      all three effect buffers are already queued. */
  lemma ForegroundCheckoutSucceeds(l: Leds)
    requires PoolValid(l.ready) && l.current == 0
    ensures GetEffectBuffer(l).buffer.None? <==> l.ready == EffectBuffers
  {
    if l.ready != EffectBuffers {
      assert StaleRun(l.ready, 0) == {};
    }
  }

  /** Marks `b` as ready for display; it does not move the current buffer. */
  function Commit(l: Leds, b: BufferIndex): (m: Leds)
    ensures m == l.(ready := m.ready)
    ensures b in m.ready && m.ready - {b} == l.ready - {b}
  {
    l.(ready := l.ready + {b})
  }

  /** Drops every ready bit: the foreground buffer is shown at the next
      buffer boundary. */
  function ClearEffect(l: Leds): (m: Leds)
    ensures m == l.(ready := m.ready)
    ensures PoolValid(m.ready) && forall b: BufferIndex :: b !in m.ready
  {
    l.(ready := {})
  }

  // ---------------------------------------------------------------------
  // Transmission cycle
  // ---------------------------------------------------------------------

  /** One timer tick in streaming mode: transmit the current page of the
      current buffer, advance the page and, after the third page, pick the
      buffer for the next frame: the foreground buffer when nothing is
      ready, else the ring successor of the current buffer if it is ready,
      else the current buffer again. */
  function Tick(l: Leds): (m: Leds)
    ensures m.sent == l.sent + [Transfer(l.current, l.page)]
    ensures m.buffers == l.buffers && m.brightness == l.brightness && m.ready == l.ready
    ensures l.page < 2 ==> m.page == l.page + 1 && m.current == l.current
    ensures l.page == 2 ==> m.page == 0
    ensures m.current == l.current || m.current in l.ready || (m.current == 0 && l.ready == {})
    ensures l.page == 2 && l.ready == {} ==> m.current == 0
    ensures l.page == 2 && RingNext(l.current) in l.ready ==> m.current == RingNext(l.current)
    ensures l.page == 2 && l.ready != {} && RingNext(l.current) !in l.ready ==> m.current == l.current
  {
    var sent := l.sent + [Transfer(l.current, l.page)];
    if l.page + 1 > 2 then
      var current :=
        if l.ready == {} then 0
        else
          var flip := RingNext(l.current);
          if flip in l.ready then flip else l.current;
      l.(page := 0, current := current, sent := sent)
    else
      l.(page := l.page + 1, sent := sent)
  }

  /** `n` consecutive ticks. */
  function Ticks(l: Leds, n: nat): (m: Leds)
    decreases n
    ensures m.buffers == l.buffers && m.brightness == l.brightness && m.ready == l.ready
    ensures |m.sent| == |l.sent| + n && m.sent[..|l.sent|] == l.sent
  {
    if n == 0 then l else Ticks(Tick(l), n - 1)
  }

  /** A frame is never torn between buffers: the three ticks that start at
      page 0 send the three planes of one and the same buffer, in order. */
  lemma FrameFromOneBuffer(l: Leds)
    requires l.page == 0
    ensures Ticks(l, 3).sent == l.sent + [Transfer(l.current, 0), Transfer(l.current, 1), Transfer(l.current, 2)]
    ensures Ticks(l, 3).page == 0
  {
    var l1 := Tick(l);
    var l2 := Tick(l1);
    var l3 := Tick(l2);
    assert Ticks(l, 3) == Ticks(l1, 2) == Ticks(l2, 1) == l3;
  }

  /** At a buffer boundary the ready successor of the current buffer is
      shown next. */
  lemma SuccessorShownNext(l: Leds)
    requires l.page == 2 && RingNext(l.current) in l.ready
    ensures Tick(l).current == RingNext(l.current) && Tick(l).page == 0
  {
  }

  /** After ClearEffect the next buffer boundary returns to the foreground. */
  lemma ClearReturnsToForeground(l: Leds)
    requires l.page == 2
    ensures Tick(ClearEffect(l)).current == 0
  {
  }

  /** The advance looks at the ring successor only: when just the buffer two
      steps ahead is ready, the current effect buffer is streamed again at
      every boundary, however many ticks pass. */
  lemma {:induction false} OnlySuccessorConsidered(l: Leds, n: nat)
    requires 1 <= l.current
    requires l.ready == {RingNext(RingNext(l.current))}
    decreases n
    ensures Ticks(l, n).current == l.current
  {
    if n > 0 {
      var l1 := Tick(l);
      assert RingNext(RingNext(l.current)) != RingNext(l.current);
      assert l1.current == l.current;
      OnlySuccessorConsidered(l1, n - 1);
    }
  }

  /** What the other side of the pool may do while a producer holds a
      working buffer: a tick, a clear, or a commit of some buffer. */
  datatype PoolOp = TickOp | ClearOp | CommitOp(b: BufferIndex)

  function Apply(l: Leds, op: PoolOp): (m: Leds)
    ensures m.buffers == l.buffers
  {
    match op
    case TickOp => Tick(l)
    case ClearOp => ClearEffect(l)
    case CommitOp(b) => Commit(l, b)
  }

  function ApplyAll(l: Leds, ops: seq<PoolOp>): (m: Leds)
    decreases |ops|
    ensures m.buffers == l.buffers
  {
    if ops == [] then l else ApplyAll(Apply(l, ops[0]), ops[1..])
  }

  /** The transmitter never reads a working buffer: a buffer handed out by
      the checkout never becomes current, whatever ticks, clears and commits
      of other buffers happen, until it is itself committed. */
  lemma {:induction false} WorkingBufferNeverStreamed(l: Leds, b: BufferIndex, ops: seq<PoolOp>)
    requires 1 <= b && b != l.current && b !in l.ready
    requires forall i :: 0 <= i < |ops| ==> ops[i] != CommitOp(b)
    decreases |ops|
    ensures ApplyAll(l, ops).current != b
  {
    if ops != [] {
      var l1 := Apply(l, ops[0]);
      assert l1.current != b && b !in l1.ready;
      WorkingBufferNeverStreamed(l1, b, ops[1..]);
    }
  }

  /** The buffer handed out by a checkout is not streamed before it is
      committed. */
  lemma CheckoutIsPrivate(l: Leds, ops: seq<PoolOp>)
    requires PoolValid(l.ready)
    requires GetEffectBuffer(l).buffer.Some?
    requires forall i :: 0 <= i < |ops| ==> ops[i] != CommitOp(GetEffectBuffer(l).buffer.value)
    ensures ApplyAll(GetEffectBuffer(l).leds, ops).current != GetEffectBuffer(l).buffer.value
  {
    var c := GetEffectBuffer(l);
    WorkingBufferNeverStreamed(c.leds, c.buffer.value, ops);
  }

  /** Two checkouts without a commit in between never hand out two
      different buffers: the second one returns the same buffer or none, and
      leaves the pool as the first one left it. */
  lemma CheckoutRepeats(l: Leds)
    requires PoolValid(l.ready)
    ensures var c := GetEffectBuffer(l);
      var c2 := GetEffectBuffer(c.leds);
      c2.leds == c.leds && (c2.buffer.None? || c2.buffer == c.buffer)
  {
    var c := GetEffectBuffer(l);
    assert StaleRun(c.leds.ready, l.current) == {};
  }

  /** A committed buffer that is the ring successor of the current buffer is
      current at the next buffer boundary. */
  lemma CommitShownAtBoundary(l: Leds, b: BufferIndex)
    requires b == RingNext(l.current)
    ensures Ticks(Commit(l, b), 3 - l.page).current == b
  {
    var m := Commit(l, b);
    if l.page == 0 {
      var m1 := Tick(m);
      var m2 := Tick(m1);
      assert Ticks(m, 3) == Ticks(m1, 2) == Ticks(m2, 1) == Tick(m2);
    } else if l.page == 1 {
      var m1 := Tick(m);
      assert Ticks(m, 2) == Ticks(m1, 1) == Tick(m1);
    } else {
      assert Ticks(m, 1) == Tick(m);
    }
  }

  /** Committing only effect buffers keeps the pool valid, and committing
      twice is committing once. */
  lemma CommitKeepsPoolValid(l: Leds, b: BufferIndex)
    requires PoolValid(l.ready) && 1 <= b
    ensures PoolValid(Commit(l, b).ready)
    ensures Commit(Commit(l, b), b) == Commit(l, b)
  {
  }
}

=== FILE: led_tables.dfy ===
/** Static lighting tables of the controller: LED wiring classes, the key to
    LED map and the multi-LED groups, with the table facts the lighting code
    relies on.
 */
module LedTables {
  import opened Common

  /** Highest valid LED id and highest LED column, from led.h. */
  const LedIdMax: nat := 0x8F
  const LedColumnMax: nat := 8

  /** Indicator LEDs driven by the host's output report, from led.h. */
  const LedScrollLock: Byte := 0x68
  const LedCapsLock: Byte := 0x6A
  const LedNumLock: Byte := 0x6C
  const LedGameMode: Byte := 0x6D

  /** Channel-order class of one LED: which cyclic rotation of (R, G, B)
      its three planes receive.  Class c stores red in plane c, green in
      plane (c + 1) % 3 and blue in plane (c + 2) % 3. */
  type Wiring = c: int | 0 <= c < 3

  /** The wiring classes of the 16 LEDs of one LED column. */
  type ColumnWiring = w: seq<Wiring> | |w| == 16
    witness [0, 0, 0, 0, 0, 0, 0, 0, 0, 0, 0, 0, 0, 0, 0, 0]

  /** Wiring class per LED id, one row per LED column: the class of LED `id`
      is RgbMap[id >> 4][id & 0xF]. */
  const RgbMap: seq<ColumnWiring> := [
    [2,2,2,2,2,2,2,2,2,2,2,2,2,2,2,2],
    [0,0,0,0,0,0,0,0,1,1,1,1,1,1,1,1],
    [2,2,2,1,0,0,0,0,0,0,0,0,2,2,1,1],
    [0,0,0,0,0,0,0,0,0,0,0,0,0,0,0,0],
    [0,0,0,0,0,0,0,0,0,0,0,0,0,0,0,0],
    [0,0,0,0,0,0,0,0,1,1,1,1,1,1,1,1],
    [1,1,1,1,1,1,1,1,1,1,1,1,1,1,1,1],
    [1,1,1,1,1,1,1,1,2,2,2,2,2,2,2,2],
    [2,2,2,2,2,2,2,2,2,2,2,2,2,2,2,2]
  ]

  /** The wiring class of LED `id`. */
  function WiringOf(id: nat): Wiring
    requires id <= LedIdMax
  {
    RgbMap[id / 16][id % 16]
  }

  /** Key-map entry meaning "this key has no LED"; it is rejected by the id bound. */
  const NoLed: Byte := 0xBF
  /** Key-map entries from here on are `GroupBase + p`: a group starting at MultiMap[p]. */
  const GroupBase: Byte := 0xC0
  /** Terminator of a group in MultiMap. */
  const GroupEnd: Byte := 0xFF

  /** The key to LED map, one matrix row (16 columns) per constant. */
  const KeyLedRow0: seq<Byte> := [0x40, 0x42, 0x46, 0x44, 0x43, 0x45, 0x38, 0x37, 0x39, 0x3e, 0x33, 0x3a, 0x3d, 0x3b, 0xbf, 0xbf]
  const KeyLedRow1: seq<Byte> := [0x4e, 0x4f, 0x48, 0x4a, 0x49, 0x47, 0x4b, 0x36, 0x34, 0x35, 0x32, 0x31, 0x2b, 0x3f, 0xbf, 0xbf]
  const KeyLedRow2: seq<Byte> := [0x51, 0x4d, 0x55, 0x4c, 0x52, 0x54, 0x53, 0x13, 0x15, 0x14, 0x12, 0x16, 0x17, 0x18, 0xbf, 0xbf]
  const KeyLedRow3: seq<Byte> := [0x50, 0x5f, 0x57, 0x59, 0x58, 0x56, 0x5a, 0x11, 0x1d, 0x1f, 0x10, 0x1c, 0x1e, 0x2f, 0xbf, 0xbf]
  const KeyLedRow4: seq<Byte> := [0x74, 0x5e, 0x76, 0x5c, 0x75, 0x60, 0x5d, 0x61, 0x5b, 0x62, 0x64, 0x1b, 0x1a, 0x19, 0xbf, 0xbf]
  const KeyLedRow5: seq<Byte> := [0x73, 0x71, 0x23, 0x72, 0x77, 0x78, 0x6e, 0x6b, 0x64, 0x6f, 0x65, 0x2e, 0x63, 0x66, 0xbf, 0xbf]
  const KeyLedRow6: seq<Byte> := [0x7e, 0x70, 0x7c, 0x7f, 0x7a, 0x79, 0x7b, 0x69, 0x0e, 0x0f, 0x20, 0x21, 0x22, 0x67, 0xbf, 0xbf]
  const KeyLedRow7: seq<Byte> := [0xbf, 0xbf, 0xc3, 0xc0, 0x7d, 0x09, 0x0b, 0x0a, 0x0c, 0x0d, 0x00, 0x03, 0x2d, 0x01, 0xbf, 0xbf]
  const KeyLedRow8: seq<Byte> := [0xc9, 0xbf, 0xc6, 0xbf, 0x80, 0x81, 0x08, 0x2c, 0xbf, 0xbf, 0xbf, 0xbf, 0xbf, 0x02]

  const KeyLedMap: seq<Byte> :=
    KeyLedRow0 + KeyLedRow1 + KeyLedRow2 + KeyLedRow3 + KeyLedRow4 +
    KeyLedRow5 + KeyLedRow6 + KeyLedRow7 + KeyLedRow8

  /** Sentinel-terminated LED groups: M1, M2, M3 and the Q button. */
  const MultiMap: seq<Byte> := [
    0x8d, 0x8b, 0xff,
    0x8e, 0x8a, 0xff,
    0x8f, 0x89, 0xff,
    0x85, 0x86, 0x88, 0x87, 0xff
  ]

  /** A key-map entry is safe to follow: either a single LED id, or a
      group reference that lands on the first id of a group in MultiMap. */
  predicate SafeEntry(e: Byte)
  {
    e < GroupBase ||
    (e - GroupBase < |MultiMap| && (e == GroupBase || MultiMap[e - GroupBase - 1] == GroupEnd))
  }

  predicate AllSafe(row: seq<Byte>)
  {
    forall i :: 0 <= i < |row| ==> SafeEntry(row[i])
  }

  lemma AllSafeConcat(a: seq<Byte>, b: seq<Byte>)
    requires AllSafe(a) && AllSafe(b)
    ensures AllSafe(a + b)
  {
  }

  lemma LowRowsSafe()
    ensures AllSafe(KeyLedRow0) && AllSafe(KeyLedRow1) && AllSafe(KeyLedRow2)
    ensures AllSafe(KeyLedRow3) && AllSafe(KeyLedRow4)
  {
    assert AllSafe(KeyLedRow0);
    assert AllSafe(KeyLedRow1);
    assert AllSafe(KeyLedRow2);
    assert AllSafe(KeyLedRow3);
  }

  lemma HighRowsSafe()
    ensures AllSafe(KeyLedRow5) && AllSafe(KeyLedRow6) && AllSafe(KeyLedRow7) && AllSafe(KeyLedRow8)
  {
    assert AllSafe(KeyLedRow5);
    assert AllSafe(KeyLedRow6);
    assert AllSafe(KeyLedRow7);
  }

  /** Every group reference in the key map stays inside MultiMap and starts
      at a group boundary, so following it never reads past the array. */
  lemma KeyLedMapSafe()
    ensures |KeyLedMap| == KeyCodeMax + 1
    ensures forall kc :: 0 <= kc <= KeyCodeMax ==> SafeEntry(KeyLedMap[kc])
  {
    LowRowsSafe();
    HighRowsSafe();
    var s := KeyLedRow0;
    AllSafeConcat(s, KeyLedRow1);
    s := s + KeyLedRow1;
    AllSafeConcat(s, KeyLedRow2);
    s := s + KeyLedRow2;
    AllSafeConcat(s, KeyLedRow3);
    s := s + KeyLedRow3;
    AllSafeConcat(s, KeyLedRow4);
    s := s + KeyLedRow4;
    AllSafeConcat(s, KeyLedRow5);
    s := s + KeyLedRow5;
    AllSafeConcat(s, KeyLedRow6);
    s := s + KeyLedRow6;
    AllSafeConcat(s, KeyLedRow7);
    s := s + KeyLedRow7;
    AllSafeConcat(s, KeyLedRow8);
    s := s + KeyLedRow8;
    assert s == KeyLedMap;
  }

  /** The LED ids of the group starting at MultiMap[p]: every entry up to,
      not including, the next terminator.  The walk stops at the terminator
      and never indexes past the array, whose last entry is a terminator. */
  function GroupFrom(p: nat): (ids: seq<Byte>)
    requires p < |MultiMap|
    decreases |MultiMap| - p
    ensures p + |ids| < |MultiMap|
    ensures ids == MultiMap[p..p + |ids|]
    ensures MultiMap[p + |ids|] == GroupEnd
    ensures forall i :: 0 <= i < |ids| ==> ids[i] != GroupEnd && ids[i] <= LedIdMax
  {
    if MultiMap[p] == GroupEnd then []
    else
      MultiMapId(p);
      var rest := GroupFrom(p + 1);
      ConsSlice(MultiMap, p, |rest|);
      [MultiMap[p]] + rest
  }

  /** An entry of MultiMap other than a terminator is a valid LED id and
      is followed by another entry. */
  lemma MultiMapId(p: nat)
    requires p < |MultiMap| && MultiMap[p] != GroupEnd
    ensures MultiMap[p] <= LedIdMax && p + 1 < |MultiMap|
  {
  }

  /** An entry followed by the slice after it is the slice from the entry. */
  lemma ConsSlice(s: seq<Byte>, p: nat, n: nat)
    requires p + 1 + n <= |s|
    ensures [s[p]] + s[p + 1..p + 1 + n] == s[p..p + 1 + n]
  {
  }
}
